=== FILE: README.md ===
# financial-control, modelled in Dafny

A model of the pure logic inside the personal-finance web app
"financial-control". It is a React front end over a document store. The
app records income ("ganho") and expense ("gasto") transactions. It then
filters them by period and type, totals them, buckets them by month for the
bar chart, groups them by day for the list, and exports them as CSV. On the
dashboard, a dialog creates transactions. The dialog and a stand-alone form
(which no file of the app imports) can also edit a record they are given, but
no caller of the dialog ever passes it one. A hook remembers the light/dark
theme.

Modules, following the source files:

- `Seqs`: the order-preserving filter (`Array.prototype.filter`) that every
  fold is built on, with subsequence and multiset facts.
- `Model`: the `Transaction` record (`type` is named `kind`, a Dafny keyword)
  and the per-type totals.
- `Text`: `Array.prototype.join` and `String.prototype.split` with a
  one-character separator, and the two round trips between them.
- `Dashboard`: `src/pages/Dashboard.js`. It covers the snapshot mapping with
  its epoch fallback, `filteredTransactions`, the date-validation effect, the
  totals, `groupedByMonth` and the text `exportToCSV` builds.
- `Monthly`: the month-keyed fold and sort that `groupedByMonth` and
  `src/components/BarChartMonthly.js` both perform, line for line.
- `TransactionList`: `groupByDate`, the loading/empty/grouped branching and
  the sign prefix of `src/components/TransactionList.js`.
- `Forms`: the field state, the two submit guards, the write a submit
  issues, and the category lists, all shared by both forms.
- `TransactionModal`, `TransactionForm`: each form's `handleSubmit`, reset and
  load effect.
- `DarkMode`: `getInitialTheme` and the persist effect of
  `src/hooks/useDarkMode.js`, over a key-value store and a class set.

Conventions:

- **Dates.** A date input (`YYYY-MM-DD`, read as UTC midnight) is a day number
  or `None` for "". `createdAt` is an `int` of milliseconds, and one day is
  86 400 000 ms.
- **Amounts.** Amounts are `real`.
- **Missing strings.** A missing or falsy string is "".
- **Formatters.** Every locale formatter is a function parameter. So are
  `toFixed(2)`, `toLocaleDateString`, the month `toLocaleString`, `toString`
  and `parseFloat`.
- **Clock.** The clock read (`new Date()`) is a parameter, read once per render.
- **Writes.** Store writes are values of type `Forms.Write` that a submit
  returns. Whether the awaited write fails is an input: the failure message,
  or `None`.
- **Key order.** JavaScript objects list string keys that are not array
  indices in insertion order. Month labels and pt-BR date strings are never
  array indices. So `Object.values(grouped)` and `Object.entries(acc)` are
  modelled as buckets kept in first-occurrence order.

Notes on what the code does:

- **Month sort.** `groupedByMonth` and the bar chart sort by
  `new Date("01 " + label)`, and parsing such a string is
  implementation-defined (section 21.4.3.2 of ECMA-262). So only the
  permutation is proved (see Left out).
- **Category filter and PDF.** `src/components/FiltroSection.js` offers a
  category filter and a PDF button; the dashboard uses neither. Its filter
  reads only the period and the type.
- **Loading state.** The dashboard's list starts as `[]`, never `null`. So on
  the dashboard the list's loading state is unreachable.
- **Day groups on the dashboard.** The dashboard hands the list plain `Date`
  values, and `groupByDate` reads `toDate` from them, which they do not offer.
  Every row then falls back to a fresh `new Date()`. The model reads the clock
  once per render, so all rows get the same date string and a non-empty list
  shows a single day group (`TransactionList.PlainDatesFormOneGroup`). In the
  code, a local midnight passing during one render would split the list in two.
- **Editing is unreachable on the dashboard.** The dashboard passes
  `handleEdit` to the list as `onEdit` (src/pages/Dashboard.js:324), but the
  list takes only `transactions` (src/components/TransactionList.js:13) and
  never calls it. So `editingTransaction` stays `null` and the dialog only
  creates. The update branch of `TransactionModal.Submit`, `Rerender` given a
  record, and the re-open lemmas describe the dialog as a component, given a
  `transaction` prop that no caller in the app passes.
- **Re-opening an edit.** For a caller that did pass a record: closing the
  dialog without saving resets its fields, and the load effect runs only when
  the `transaction` prop changes. So passing the same record object again
  would show blank fields (`TransactionModal.ReopenSameRecordShowsBlank`).

## Model

| member | source | states |
|---|---|---|
| Model.KindTotalSnoc | src/pages/Dashboard.js:130-136 | Appending a transaction raises the total of its own type by its amount and leaves every other type's total unchanged |
| Text.SplitJoin | src/pages/Dashboard.js:100-105 | Splitting a join gives back the pieces, when no piece holds the separator |
| Text.JoinSplit | src/pages/Dashboard.js:100-105 | Joining the pieces of a split rebuilds the string |
| Dashboard.FromDoc | src/pages/Dashboard.js:67-75 | A document keeps id, type, amount, category and owner. A resolved timestamp keeps its time, and an unresolved one reads as the epoch (0 ms) |
| Dashboard.Snapshot | src/pages/Dashboard.js:67-76 | One transaction per document, in document order, each the document's mapped record with the epoch fallback |
| Dashboard.SnapshotRoundTrip | src/pages/Dashboard.js:67-75 | Writing a mapped record back gives the document again. A pending document comes back stamped with the epoch, so the unresolved timestamp is the only loss |
| Dashboard.Filtered | src/pages/Dashboard.js:116-128 | The result is an order-preserving subsequence of the snapshot. A transaction is in it iff it is in the snapshot and matches both the period and the type. Each kept transaction keeps its multiplicity, and every other has none |
| Dashboard.ClearedFilterKeepsAll | src/pages/Dashboard.js:116-128 | With type "todos" and both dates empty, the filter returns the snapshot unchanged |
| Dashboard.FilterIdempotent | src/pages/Dashboard.js:116-128 | Filtering the filtered list again with the same criteria changes nothing |
| Dashboard.StartDayIsInclusive | src/pages/Dashboard.js:117-123 | A transaction at the start day's first millisecond is kept, and one a millisecond earlier is dropped |
| Dashboard.EndDayIsInclusive | src/pages/Dashboard.js:118-123 | A transaction at end day + 86 399 999 ms is kept, and one at end day + 86 400 000 ms is dropped |
| Dashboard.DateError | src/pages/Dashboard.js:83-89 | The message is non-empty exactly when both dates are set and the start is after the end. It is otherwise "", and when non-empty it is the fixed message |
| Dashboard.InvertedRangeKeepsNothing | src/pages/Dashboard.js:116-123 | The filter does not read the flag. Whenever the flag is raised, the day-aligned bounds are inverted and the filtered list is empty |
| Dashboard.PendingDocHiddenByStartDate | src/pages/Dashboard.js:73 | A document with an unresolved timestamp reads as the epoch, so any start date after 1 January 1970 filters it out |
| Dashboard.ComputeTotals | src/pages/Dashboard.js:130-138 | totalGanhos is the sum of the "ganho" amounts and totalGastos the sum of the "gasto" amounts. The balance equals the signed reference sum `Net`, and an empty list gives zeros |
| Dashboard.NetIsBalance | src/pages/Dashboard.js:130-138 | The signed per-transaction sum equals the "ganho" total minus the "gasto" total |
| Dashboard.TotalsAppend | src/pages/Dashboard.js:130-138 | All three totals are additive over concatenation |
| Dashboard.OtherKindChangesNoTotal | src/pages/Dashboard.js:130-136 | A transaction of any other type changes no total |
| Dashboard.TypeFilterZeroesOtherTotal | src/pages/Dashboard.js:116-136 | Filtering on "ganho" makes totalGastos 0, and filtering on "gasto" makes totalGanhos 0 |
| Dashboard.GroupedByMonth | src/pages/Dashboard.js:146-164 | The buckets have distinct months, exactly the months present. Each bucket holds its month's sums, and the bucket sums equal the dashboard's totals and balance |
| Dashboard.CategoryCell | src/pages/Dashboard.js:95 | An empty category becomes "-", and any other category is kept |
| Dashboard.HeaderJoin | src/pages/Dashboard.js:101-104 | The header row joins to `Tipo;Categoria;Valor;Data` |
| Dashboard.ExportCsv | src/pages/Dashboard.js:92-105 | The text starts with the header line, and with no transactions it is exactly the header line |
| Dashboard.CsvRoundTrip | src/pages/Dashboard.js:92-105 | If no field holds ";" or a line break, splitting on "\n" gives the header line and then one line per transaction in order. Splitting each line on ";" gives back its four fields |
| Monthly.IndexOfMonth | src/components/BarChartMonthly.js:20 | The lookup finds the bucket with that month, or reports that none exists |
| Monthly.Contribute | src/components/BarChartMonthly.js:22-23 | A bucket keeps its month. A "ganho" adds its amount to ganhos only, a "gasto" to gastos only, and any other type adds nothing |
| Monthly.Group | src/components/BarChartMonthly.js:12-24 | There is one bucket per distinct month of the input, with no month twice, and never more buckets than transactions |
| Monthly.GroupBucketSums | src/components/BarChartMonthly.js:20-23 | Each bucket's ganhos (gastos) is the sum of the "ganho" ("gasto") amounts of its month |
| Monthly.GroupConservesTotals | src/components/BarChartMonthly.js:14-24 | Over all buckets, ganhos adds up to the input's "ganho" total and gastos to its "gasto" total |
| Monthly.UnrecognisedKindOnlyOpensBucket | src/components/BarChartMonthly.js:20-23 | A transaction of another type opens its month's bucket at zero if absent, and otherwise changes nothing |
| Monthly.SortBy | src/components/BarChartMonthly.js:26-28 | The sort is a permutation: the same buckets, months and sums, and distinct months stay distinct |
| Monthly.Series | src/components/BarChartMonthly.js:12-28 | The chart data has distinct months, exactly those of the input, each with its month's sums. The sums match the totals, and an empty input gives empty data |
| TransactionList.IndexOfDate | src/components/TransactionList.js:7 | The lookup finds the group for that date string, or reports that none exists |
| TransactionList.GroupByDate | src/components/TransactionList.js:3-11 | The dates are distinct, exactly the input's date strings, and there are no more groups than transactions |
| TransactionList.GroupsAreFilters | src/components/TransactionList.js:7-8 | Each group is the input filtered on its date, so it keeps input order |
| TransactionList.ExactlyOneGroup | src/components/TransactionList.js:3-10 | Every transaction is in exactly one group, the one keyed by its own date string |
| TransactionList.SizesAddUp | src/components/TransactionList.js:3-10 | The group sizes add up to the input length |
| TransactionList.GroupsInFirstOccurrenceOrder | src/components/TransactionList.js:4-10 | Groups appear in the order in which their dates first occur |
| TransactionList.PlainDatesFormOneGroup | src/components/TransactionList.js:5 | When no value offers `toDate`, a non-empty list forms a single group, dated "now", that holds the whole list in order |
| TransactionList.Render | src/components/TransactionList.js:14-36 | `null` shows loading and `[]` shows empty. Only a non-empty list is grouped, into at least one group |
| TransactionList.AmountText | src/components/TransactionList.js:57-58 | The text starts with "-" iff the type is "gasto", followed by "R$ " and the formatted amount |
| Forms.Payload | src/components/TransactionModal.js:49-53 | The patch has exactly the keys type, amount and category, with the parsed amount |
| Forms.Decide | src/components/TransactionModal.js:44-63 | The login guard comes first, then the field guard. An edit updates the record's id with exactly the payload. A creation adds the payload plus userId and a server timestamp |
| Forms.EditKeepsOwnerAndDate | src/components/TransactionModal.js:48-53 | After an edit, the stored userId and createdAt are untouched |
| Forms.CategoryOptions | src/components/TransactionModal.js:71 | The income list is chosen iff the type is "ganho", and otherwise the expense list. The stand-alone form makes the same choice over identical lists (src/components/TransactionForm.js:83) |
| TransactionModal.Submit | src/components/TransactionModal.js:40-69 | As `handleSubmit`, once called: a write happens iff there is a user and both fields are filled, with the auth and field toasts when there is not. The dialog closes and resets iff the write succeeds, and a failed save keeps the fields and reports "Erro ao salvar: " + message |
| TransactionModal.Press | src/components/TransactionModal.js:86-116 | A press with an empty amount is stopped by the browser, with no toast and no write. Otherwise `handleSubmit` runs, and a write is issued iff there is a user and a category, with the auth or field toast when not |
| TransactionModal.EmptyCategoryReachesFieldGuard | src/components/TransactionModal.js:44-45 | With the amount filled, an empty category (the select is not required) reaches the field toast and writes nothing |
| TransactionModal.Close | src/components/TransactionModal.js:35-38 | The fields return to ("ganho", "", "") |
| TransactionModal.Load | src/components/TransactionModal.js:25-33 | A transaction loads its type, amount text and category, and no transaction resets the fields |
| TransactionModal.Rerender | src/components/TransactionModal.js:25-33 | The load effect runs only when the `transaction` prop changes by `Object.is`, and otherwise the fields keep their state |
| TransactionModal.ReopenSameRecordShowsBlank | src/components/TransactionModal.js:25-38 | Closing an edit without saving and passing the same record object again shows blank fields. A press is then blocked by the required amount, and `handleSubmit`, if called, would stop at the field check |
| TransactionModal.ReopenNewObjectReloads | src/components/TransactionModal.js:25-33 | Choosing a record object that a later snapshot rebuilt reloads its values |
| TransactionModal.SaveThenResubmitWritesNothing | src/components/TransactionModal.js:44-65 | Once a save has completed, the blank form blocks a further press at the required amount, and `handleSubmit`, if called, would write nothing and show the field error |
| TransactionModal.FailedSaveCanBeRetried | src/components/TransactionModal.js:66-68 | After a failed save, a retry issues the same write |
| TransactionModal.UnchangedEditRewritesSameValues | src/components/TransactionModal.js:25-53 | Opening a record and saving it unchanged writes back its own type, amount and category, when parseFloat inverts toString |
| TransactionForm.Submit | src/components/TransactionForm.js:40-81 | As `handleSubmit`, once called: a write happens iff there is a user and both fields are filled, with untagged toasts when there is not. A successful write resets the fields, and `clearEdit` is called iff an update succeeded. A failure keeps the fields and reports "Erro ao salvar transação: " + message |
| TransactionForm.Press | src/components/TransactionForm.js:86-120 | A press with an empty amount is stopped by the browser, with no toast and no write. Otherwise `handleSubmit` runs, and a write is issued iff there is a user and a category, with an untagged toast when not |
| TransactionForm.SavedFormBlocksResubmit | src/components/TransactionForm.js:113-120 | After a successful save the fields are blank, so the next press is blocked by the required amount |
| TransactionForm.Load | src/components/TransactionForm.js:32-38 | A selected transaction loads its fields, and a cleared selection leaves them as they are |
| TransactionForm.SavedEditStaysBlank | src/components/TransactionForm.js:56-77 | A saved edit clears the selection, and the cleared selection leaves the fields blank |
| TransactionForm.CancelledEditCreatesFromLoadedFields | src/components/TransactionForm.js:32-72 | Dropping the selection keeps the loaded values, so the next submit creates a new record from them |
| DarkMode.InitialTheme | src/hooks/useDarkMode.js:5-10 | With no window the theme is light. A stored non-empty value means dark iff it is "dark", and otherwise the system preference decides |
| DarkMode.Persist | src/hooks/useDarkMode.js:14-23 | The "dark" class is present iff the theme is dark, and "dark" or "light" is stored under "theme". Other classes and keys are unchanged |
| DarkMode.PersistThenReload | src/hooks/useDarkMode.js:5-23 | After persisting a choice, the next initial theme is that choice |
| DarkMode.PersistIdempotent | src/hooks/useDarkMode.js:14-23 | Running the effect twice with the same value is the same as running it once |
| DarkMode.PersistLastWins | src/hooks/useDarkMode.js:14-23 | Persisting twice is the same as persisting the second value, so each click of the toggle, which negates the flag (src/components/DarkModeToggle.js:9), leaves exactly the new choice |
| DarkMode.MountStoresInitialTheme | src/hooks/useDarkMode.js:12-23 | The mount-time effect stores a non-empty value and keeps the theme that was read |
| DarkMode.OtherStoredValueIsLight | src/hooks/useDarkMode.js:7-8 | A stored value other than "dark" means light, even when the system prefers dark |

## Left out

- Store I/O. The snapshot subscription, `getDoc` of the user's name, and `addDoc`/`updateDoc` are left out. Writes are returned values, and the snapshot is an input sequence.
- Toasts. A toast is a returned value, so the model has no display, timing or `toast.dismiss()`.
- Dashboard view state. `handleNew` and the inline `onClose` passed to the dialog (src/pages/Dashboard.js:171-174, 327-331) only set `editingTransaction` and `modalOpen`. `handleEdit` (src/pages/Dashboard.js:166-169) is never called, because the list ignores its `onEdit` prop. The dialog's response to a changed `transaction` prop is modelled by `TransactionModal.Rerender`; the open flag itself is not modelled.
- Browser download plumbing. The Blob, object URL and anchor click of `exportToCSV` are left out. Only the CSV text is modelled.
- The pie chart's two-entry `chartData`. It only repackages the two totals.
- Locale formatting. `toFixed(2)`, `toLocaleDateString("pt-BR")`, the month `toLocaleString`, `toString` and `parseFloat` are uninterpreted parameters, so NaN from `parseFloat` is not modelled.
- IEEE-754 arithmetic. Amounts are exact reals, so rounding in long sums is not modelled.
- Monthly.SortBy: it does not prove chronological order. The comparator hands localized labels to `Date.parse`, whose result for such strings is implementation-defined (section 21.4.3.2 of ECMA-262). The comparator is a parameter, and insertion sort stands in for the engine's sort. Only facts true of every permutation are stated.
- `src/pages/AuthPage.js`. It only calls the authentication service.
- Components without logic. `src/components/FiltroSection.js` (including its category filter and PDF button, which the dashboard does not use), `ConfirmDeleteModal.js`, `ResumoCard.js`, `src/App.js` and `PrivateRoute.js` only render or route.
- `src/components/DarkModeToggle.js`. It is the theme hook's only caller, and a click negates the flag (line 9). The effect that follows is `DarkMode.Persist`, and `DarkMode.PersistThenReload` and `DarkMode.PersistLastWins` cover repeated clicks; the button itself is rendering.
- `src/utils/categories.js`. It is static data that no modelled file imports; the forms use their own lists.
- Rendering. JSX, charts and animations are left out.
- TransactionList.PlainDatesFormOneGroup: the clock is modelled as one reading per render. The code calls `new Date()` once per row, so a local midnight passing during one render would give two day groups.
- TransactionModal.SaveThenResubmitWritesNothing: each submit is modelled as running to completion, with its awaited write never interleaved with other events. Neither form disables its button while `addDoc`/`updateDoc` is pending (src/components/TransactionModal.js:47-65, 118). So a second submit in that window passes both guards on the unchanged fields and issues the write again: a double click creates two records. In the dialog, closing during the window resets the fields before a failure is reported.
- TransactionForm.Submit: the same holds for the stand-alone form (src/components/TransactionForm.js:55-77, 122). A submit while a write is pending issues it again, and the model does not interleave them.
- Dashboard.FromDoc: a stored document carries exactly the fields the forms write. In the code, an `id` field stored in the document data would override the document id, because the data is spread after it (src/pages/Dashboard.js:70-74). Any other extra field is carried along unread.
- TransactionModal.Submit: it is `handleSubmit` as if called. In the app, the `required` amount input (src/components/TransactionModal.js:115) makes the browser stop a press with an empty amount before `handleSubmit` runs, with no toast. So with no user and an empty amount no auth toast appears, and the field toast is reached only through an empty category. `TransactionModal.Press` models the gate.
- TransactionForm.Submit: the same holds for the stand-alone form, whose amount input is `required` at src/components/TransactionForm.js:119. `TransactionForm.Press` models the gate.
- TransactionModal.ReopenSameRecordShowsBlank: its clauses about `Submit` describe `handleSubmit` as if it were called. The blank amount means the browser blocks the press first, with no toast, as its `Press` clause states.
- TransactionModal.SaveThenResubmitWritesNothing: likewise, the field error it states is what `handleSubmit` would report. In the app, the blank amount blocks the press first, with no toast, as its `Press` clause states.

=== FILE: dark_mode.dfy ===
/** The theme hook: the initial choice from storage or the system preference,
    and the effect that applies and persists a choice. */
module DarkMode {
  /** The parts of the browser the hook touches. `storage` is `localStorage`
      (a missing key is `getItem` returning `null`); `prefersDark` is the
      `(prefers-color-scheme: dark)` media query; `rootClasses` is the class
      list of the document element. */
  datatype Browser = Browser(hasWindow: bool, storage: map<string, string>, prefersDark: bool, rootClasses: set<string>)

  const ThemeKey: string := "theme"
  const Dark: string := "dark"
  const Light: string := "light"

  /** `getInitialTheme`: no window means light; a stored non-empty value
      decides by being exactly "dark"; otherwise the system preference. */
  function InitialTheme(b: Browser): (dark: bool)
    ensures !b.hasWindow ==> !dark
    ensures b.hasWindow && ThemeKey in b.storage && b.storage[ThemeKey] != "" ==>
      (dark <==> b.storage[ThemeKey] == Dark)
    ensures b.hasWindow && (ThemeKey !in b.storage || b.storage[ThemeKey] == "") ==> dark == b.prefersDark
  {
    if !b.hasWindow then false
    else if ThemeKey in b.storage && b.storage[ThemeKey] != "" then b.storage[ThemeKey] == Dark
    else b.prefersDark
  }

  /** The effect on `darkMode`: the "dark" class is present exactly when the
      theme is dark, "dark" or "light" is stored under "theme", and every
      other class and stored key is left alone. */
  function Persist(b: Browser, dark: bool): (r: Browser)
    ensures Dark in r.rootClasses <==> dark
    ensures r.rootClasses - {Dark} == b.rootClasses - {Dark}
    ensures ThemeKey in r.storage && r.storage[ThemeKey] == (if dark then Dark else Light)
    ensures r.storage.Keys == b.storage.Keys + {ThemeKey}
    ensures forall k :: k in b.storage && k != ThemeKey ==> r.storage[k] == b.storage[k]
    ensures r.hasWindow == b.hasWindow && r.prefersDark == b.prefersDark
  {
    var classes := if dark then b.rootClasses + {Dark} else b.rootClasses - {Dark};
    var value := if dark then Dark else Light;
    b.(storage := b.storage[ThemeKey := value], rootClasses := classes)
  }

  /** A persisted choice is the one read back on the next load, whatever the
      system preference says. */
  lemma PersistThenReload(b: Browser, dark: bool)
    requires b.hasWindow
    ensures InitialTheme(Persist(b, dark)) == dark
  {
  }

  /** Re-running the effect with the same value changes nothing. */
  lemma PersistIdempotent(b: Browser, dark: bool)
    ensures Persist(Persist(b, dark), dark) == Persist(b, dark)
  {
  }

  /** The later choice wins: persisting twice is persisting the second. */
  lemma PersistLastWins(b: Browser, first: bool, second: bool)
    ensures Persist(Persist(b, first), second) == Persist(b, second)
  {
  }

  /** On first mount the effect writes back what was read, so a stored theme
      survives the mount and a missing one is filled in from the preference. */
  lemma MountStoresInitialTheme(b: Browser)
    requires b.hasWindow
    ensures var r := Persist(b, InitialTheme(b));
      && InitialTheme(r) == InitialTheme(b)
      && r.storage[ThemeKey] != ""
  {
  }

  /** A stored value other than "dark" (say a stale "light" or "blue") means
      light, even when the system prefers dark. */
  lemma OtherStoredValueIsLight(b: Browser, v: string)
    requires b.hasWindow && b.prefersDark && v != "" && v != Dark
    ensures !InitialTheme(b.(storage := b.storage[ThemeKey := v]))
  {
  }
}

=== FILE: dashboard.dfy ===
/** The dashboard's pure logic: snapshot mapping, the date-range and type
    filter, the "start after end" flag, totals, the monthly series and the
    CSV text of the export. */
module Dashboard {
  import Seqs
  import Text
  import Monthly
  import opened Model

  /** Milliseconds in one day, `24 * 60 * 60 * 1000`. */
  const DayMs: int := 86400000

  /** The type select's "all types" value. */
  const AllTypes: string := "todos"

  /** Filter state. A date input holds "" or a `YYYY-MM-DD` string, which
      `new Date(...)` reads as UTC midnight; it is kept as a day number since
      the epoch, `None` standing for "". */
  datatype Criteria = Criteria(filterType: string, startDay: Option<int>, endDay: Option<int>)

  // ---------------------------------------------------------------------
  // Snapshot mapping

  /** A stored document as the listener delivers it. `createdAt` is the
      server timestamp's value in milliseconds, `None` while the timestamp is
      unresolved (the field is then null and offers no `toDate`). */
  datatype StoredDoc = StoredDoc(
    id: string,
    kind: string,
    amount: real,
    category: string,
    userId: string,
    createdAt: Option<int>)

  /** The mapping of one snapshot document (src/pages/Dashboard.js:70-74):
      the document id and stored fields, with an unresolved timestamp read as
      the epoch. */
  function FromDoc(d: StoredDoc): (t: Transaction)
    ensures t.id == d.id && t.kind == d.kind && t.amount == d.amount
    ensures t.category == d.category && t.userId == d.userId
    ensures d.createdAt.Some? ==> t.createdAt == d.createdAt.value
    ensures d.createdAt.None? ==> t.createdAt == 0
  {
    Transaction(d.id, d.kind, d.amount, d.category, d.userId,
                match d.createdAt case Some(ms) => ms case None => 0)
  }

  /** `snapshot.docs.map(...)`: one transaction per document, in order. */
  function Snapshot(docs: seq<StoredDoc>): (ts: seq<Transaction>)
    ensures |ts| == |docs|
    ensures forall i :: 0 <= i < |docs| ==> ts[i] == FromDoc(docs[i])
  {
    seq(|docs|, i requires 0 <= i < |docs| => FromDoc(docs[i]))
  }

  /** The stored form of a transaction, its timestamp resolved. */
  function ToDoc(t: Transaction): (d: StoredDoc)
    ensures d.createdAt == Some(t.createdAt)
  {
    StoredDoc(t.id, t.kind, t.amount, t.category, t.userId, Some(t.createdAt))
  }

  /** The mapping loses nothing but an unresolved timestamp: a resolved
      document reads back whole, and a pending one reads back stamped with
      the epoch. */
  lemma SnapshotRoundTrip(docs: seq<StoredDoc>)
    ensures forall i :: 0 <= i < |docs| && docs[i].createdAt.Some? ==> ToDoc(Snapshot(docs)[i]) == docs[i]
    ensures forall i :: 0 <= i < |docs| && docs[i].createdAt.None? ==>
      ToDoc(Snapshot(docs)[i]) == docs[i].(createdAt := Some(0))
  {
  }

  // ---------------------------------------------------------------------
  // Filter

  /** The start day's first millisecond (src/pages/Dashboard.js:117). */
  function StartBound(day: int): int {
    day * DayMs
  }

  /** The end day's last millisecond, one day after its midnight less one
      (src/pages/Dashboard.js:118). */
  function EndBound(day: int): int {
    day * DayMs + DayMs - 1
  }

  predicate PeriodMatch(c: Criteria, t: Transaction) {
    && (c.startDay.None? || t.createdAt >= StartBound(c.startDay.value))
    && (c.endDay.None? || t.createdAt <= EndBound(c.endDay.value))
  }

  predicate TypeMatch(c: Criteria, t: Transaction) {
    c.filterType == AllTypes || t.kind == c.filterType
  }

  function Keep(c: Criteria): Transaction -> bool {
    (t: Transaction) => PeriodMatch(c, t) && TypeMatch(c, t)
  }

  /** `filteredTransactions`: an order-preserving subsequence of the snapshot
      holding exactly the transactions that match both the period and the type. */
  function Filtered(ts: seq<Transaction>, c: Criteria): (r: seq<Transaction>)
    ensures Seqs.IsSubsequence(r, ts)
    ensures forall t :: t in r <==> t in ts && PeriodMatch(c, t) && TypeMatch(c, t)
    ensures forall t :: t in ts ==> multiset(r)[t] == if PeriodMatch(c, t) && TypeMatch(c, t) then multiset(ts)[t] else 0
  {
    Seqs.FilterIsSubsequence(Keep(c), ts);
    Seqs.Filter(Keep(c), ts)
  }

  /** `handleClearFilters`: all types, both dates emptied. */
  const Cleared: Criteria := Criteria(AllTypes, None, None)

  /** With every filter cleared the filter is the identity on the snapshot. */
  lemma ClearedFilterKeepsAll(ts: seq<Transaction>)
    ensures Filtered(ts, Cleared) == ts
  {
    Seqs.FilterKeepsAll(Keep(Cleared), ts);
  }

  /** Filtering is idempotent: the filtered list passes the same filter whole. */
  lemma FilterIdempotent(ts: seq<Transaction>, c: Criteria)
    ensures Filtered(Filtered(ts, c), c) == Filtered(ts, c)
  {
    Seqs.FilterIdempotent(Keep(c), ts);
  }

  /** The start bound is inclusive: a transaction at the start day's first
      millisecond is kept and one a millisecond earlier is dropped. */
  lemma StartDayIsInclusive(ts: seq<Transaction>, c: Criteria, t: Transaction)
    requires t in ts && c.startDay.Some? && TypeMatch(c, t)
    requires c.endDay.None? || t.createdAt <= EndBound(c.endDay.value)
    ensures t.createdAt == c.startDay.value * 86400000 ==> t in Filtered(ts, c)
    ensures t.createdAt == c.startDay.value * 86400000 - 1 ==> t !in Filtered(ts, c)
  {
  }

  /** The end bound is inclusive through the end day's last millisecond:
      `endDate + 86 399 999 ms` is kept, `endDate + 86 400 000 ms` is dropped. */
  lemma EndDayIsInclusive(ts: seq<Transaction>, c: Criteria, t: Transaction)
    requires t in ts && c.endDay.Some? && TypeMatch(c, t)
    requires c.startDay.None? || t.createdAt >= StartBound(c.startDay.value)
    ensures t.createdAt == c.endDay.value * 86400000 + 86399999 ==> t in Filtered(ts, c)
    ensures t.createdAt == c.endDay.value * 86400000 + 86400000 ==> t !in Filtered(ts, c)
  {
  }

  // ---------------------------------------------------------------------
  // Date validation

  const DateErrorText: string := "Data inicial não pode ser maior que a final."

  /** The validation effect (src/pages/Dashboard.js:83-89): the message when
      both dates are set and the start is later than the end, "" otherwise. */
  function DateError(startDay: Option<int>, endDay: Option<int>): (msg: string)
    ensures msg != "" <==> startDay.Some? && endDay.Some? && startDay.value > endDay.value
    ensures msg == "" || msg == DateErrorText
  {
    if startDay.Some? && endDay.Some? && StartBound(startDay.value) > StartBound(endDay.value)
    then DateErrorText
    else ""
  }

  /** The filter does not consult the flag: with the flag raised no
      transaction lies in the inverted range, so the filtered list is empty. */
  lemma InvertedRangeKeepsNothing(ts: seq<Transaction>, c: Criteria)
    requires DateError(c.startDay, c.endDay) != ""
    ensures Filtered(ts, c) == []
  {
    forall t | t in ts
      ensures !Keep(c)(t)
    {
      assert c.startDay.value >= c.endDay.value + 1;
      assert StartBound(c.startDay.value) > EndBound(c.endDay.value);
    }
    Seqs.FilterKeepsNone(Keep(c), ts);
  }

  // ---------------------------------------------------------------------
  // Totals

  datatype Totals = Totals(ganhos: real, gastos: real, balance: real)

  /** Signed contribution of a transaction to the balance: plus for "ganho",
      minus for "gasto", nothing for any other type. */
  function Signed(t: Transaction): real {
    if t.kind == Income then t.amount else if t.kind == Expense then -t.amount else 0.0
  }

  /** Reference definition of the net balance, one signed term per transaction. */
  function Net(ts: seq<Transaction>): real {
    if |ts| == 0 then 0.0 else Net(ts[..|ts| - 1]) + Signed(ts[|ts| - 1])
  }

  /** `totalGanhos`, `totalGastos` and `balance`. */
  function ComputeTotals(ts: seq<Transaction>): (r: Totals)
    ensures r.ganhos == KindTotal(ts, Income) && r.gastos == KindTotal(ts, Expense)
    ensures r.balance == Net(ts)
    ensures |ts| == 0 ==> r == Totals(0.0, 0.0, 0.0)
  {
    NetIsBalance(ts);
    var ganhos := KindTotal(ts, Income);
    var gastos := KindTotal(ts, Expense);
    Totals(ganhos, gastos, ganhos - gastos)
  }

  lemma {:induction false} NetIsBalance(ts: seq<Transaction>)
    ensures Net(ts) == KindTotal(ts, Income) - KindTotal(ts, Expense)
  {
    if |ts| > 0 {
      var init, t := ts[..|ts| - 1], ts[|ts| - 1];
      assert ts == init + [t];
      NetIsBalance(init);
      KindTotalSnoc(init, t, Income);
      KindTotalSnoc(init, t, Expense);
    }
  }

  /** Totals are additive over concatenation. */
  lemma TotalsAppend(a: seq<Transaction>, b: seq<Transaction>)
    ensures ComputeTotals(a + b).ganhos == ComputeTotals(a).ganhos + ComputeTotals(b).ganhos
    ensures ComputeTotals(a + b).gastos == ComputeTotals(a).gastos + ComputeTotals(b).gastos
    ensures ComputeTotals(a + b).balance == ComputeTotals(a).balance + ComputeTotals(b).balance
  {
    KindTotalAppend(a, b, Income);
    KindTotalAppend(a, b, Expense);
  }

  /** A transaction of any other type changes no total. */
  lemma OtherKindChangesNoTotal(ts: seq<Transaction>, t: Transaction)
    requires t.kind != Income && t.kind != Expense
    ensures ComputeTotals(ts + [t]) == ComputeTotals(ts)
  {
    KindTotalSnoc(ts, t, Income);
    KindTotalSnoc(ts, t, Expense);
  }

  /** Filtering on "ganho" leaves no "gasto" total, and the other way round. */
  lemma TypeFilterZeroesOtherTotal(ts: seq<Transaction>, c: Criteria)
    ensures c.filterType == Income ==> ComputeTotals(Filtered(ts, c)).gastos == 0.0
    ensures c.filterType == Expense ==> ComputeTotals(Filtered(ts, c)).ganhos == 0.0
  {
    var r := Filtered(ts, c);
    if c.filterType == Income {
      Seqs.FilterKeepsNone(OfKind(Expense), r);
    } else if c.filterType == Expense {
      Seqs.FilterKeepsNone(OfKind(Income), r);
    }
  }

  // ---------------------------------------------------------------------
  // Monthly series

  /** `groupedByMonth()` over the filtered list: its buckets split the
      dashboard's own totals. */
  function GroupedByMonth(filtered: seq<Transaction>, fmt: Monthly.MonthLabel, precedes: (string, string) -> bool)
    : (r: seq<Monthly.Bucket>)
    ensures Monthly.DistinctMonths(r)
    ensures Monthly.Months(r) == Monthly.MonthsOf(filtered, fmt)
    ensures Monthly.BucketsMatch(r, filtered, fmt)
    ensures Monthly.SumGanhos(r) == ComputeTotals(filtered).ganhos
    ensures Monthly.SumGastos(r) == ComputeTotals(filtered).gastos
    ensures Monthly.SumGanhos(r) - Monthly.SumGastos(r) == ComputeTotals(filtered).balance
  {
    Monthly.Series(filtered, fmt, precedes)
  }

  // ---------------------------------------------------------------------
  // CSV export

  /** The category cell (src/pages/Dashboard.js:95): an empty category is
      shown as "-". */
  function CategoryCell(category: string): (cell: string)
    ensures cell != ""
    ensures category != "" ==> cell == category
    ensures category == "" ==> cell == "-"
  {
    if category == "" then "-" else category
  }

  const Header: seq<string> := ["Tipo", "Categoria", "Valor", "Data"]
  const HeaderLine: string := "Tipo;Categoria;Valor;Data"

  /** One row: type, category, `amount.toFixed(2)` and
      `createdAt.toLocaleDateString("pt-BR")`; both formatters are supplied. */
  function Row(t: Transaction, money: real -> string, date: int -> string): seq<string> {
    [t.kind, CategoryCell(t.category), money(t.amount), date(t.createdAt)]
  }

  function Table(ts: seq<Transaction>, money: real -> string, date: int -> string): seq<seq<string>> {
    [Header] + seq(|ts|, i requires 0 <= i < |ts| => Row(ts[i], money, date))
  }

  function Lines(table: seq<seq<string>>): seq<string> {
    seq(|table|, i requires 0 <= i < |table| => Text.Join(table[i], ';'))
  }

  /** The text `exportToCSV` writes: rows joined by ";", lines by "\n". */
  function ExportCsv(ts: seq<Transaction>, money: real -> string, date: int -> string): (csv: string)
    ensures |HeaderLine| <= |csv| && csv[..|HeaderLine|] == HeaderLine
    ensures |ts| == 0 ==> csv == HeaderLine
  {
    var lines := Lines(Table(ts, money, date));
    HeaderJoin();
    Text.JoinPrefix(lines, '\n');
    Text.Join(lines, '\n')
  }

  lemma HeaderJoin()
    ensures Text.Join(Header, ';') == HeaderLine
  {
    assert Header[1..][1..][1..] == ["Data"];
  }

  /** A field the export can split back: no ";" and no line break. */
  predicate Clean(s: string) {
    ';' !in s && '\n' !in s
  }

  /** Round trip of the export: when no field holds ";" or "\n", splitting the
      text on "\n" gives the header line and one line per transaction in
      order, and splitting each line on ";" gives back its four fields. */
  lemma CsvRoundTrip(ts: seq<Transaction>, money: real -> string, date: int -> string)
    requires forall i :: 0 <= i < |ts| ==>
      Clean(ts[i].kind) && Clean(ts[i].category) && Clean(money(ts[i].amount)) && Clean(date(ts[i].createdAt))
    ensures |Text.Split(ExportCsv(ts, money, date), '\n')| == |ts| + 1
    ensures Text.Split(ExportCsv(ts, money, date), '\n')[0] == HeaderLine
    ensures forall i :: 0 <= i < |ts| ==>
      Text.Split(Text.Split(ExportCsv(ts, money, date), '\n')[i + 1], ';') == Row(ts[i], money, date)
  {
    CsvSplitsIntoLines(ts, money, date);
    LinesOfTable(ts, money, date);
  }

  /** Splitting the export on "\n" recovers its lines. */
  lemma CsvSplitsIntoLines(ts: seq<Transaction>, money: real -> string, date: int -> string)
    requires forall i :: 0 <= i < |ts| ==>
      Clean(ts[i].kind) && Clean(ts[i].category) && Clean(money(ts[i].amount)) && Clean(date(ts[i].createdAt))
    ensures Text.Split(ExportCsv(ts, money, date), '\n') == Lines(Table(ts, money, date))
    ensures forall i :: 0 <= i < |Table(ts, money, date)| ==>
      Text.Split(Lines(Table(ts, money, date))[i], ';') == Table(ts, money, date)[i]
  {
    var table := Table(ts, money, date);
    TableIsClean(ts, money, date);
    LinesSplit(table);
    Text.SplitJoin(Lines(table), '\n');
  }

  /** The table's first line is the header and line `i + 1` holds transaction `i`. */
  lemma LinesOfTable(ts: seq<Transaction>, money: real -> string, date: int -> string)
    ensures |Lines(Table(ts, money, date))| == |ts| + 1
    ensures Lines(Table(ts, money, date))[0] == HeaderLine
    ensures forall i :: 0 <= i < |ts| ==> Table(ts, money, date)[i + 1] == Row(ts[i], money, date)
  {
    HeaderJoin();
  }

  lemma TableIsClean(ts: seq<Transaction>, money: real -> string, date: int -> string)
    requires forall i :: 0 <= i < |ts| ==>
      Clean(ts[i].kind) && Clean(ts[i].category) && Clean(money(ts[i].amount)) && Clean(date(ts[i].createdAt))
    ensures forall i, k :: 0 <= i < |Table(ts, money, date)| && 0 <= k < |Table(ts, money, date)[i]| ==>
      Clean(Table(ts, money, date)[i][k])
  {
    var table := Table(ts, money, date);
    forall i, k | 0 <= i < |table| && 0 <= k < |table[i]|
      ensures Clean(table[i][k])
    {
      if i > 0 {
        assert table[i] == Row(ts[i - 1], money, date);
      }
    }
  }

  /** Lines built from clean cells hold no line break and split back into their cells. */
  lemma LinesSplit(table: seq<seq<string>>)
    requires forall i, k :: 0 <= i < |table| && 0 <= k < |table[i]| ==> Clean(table[i][k])
    requires forall i :: 0 <= i < |table| ==> |table[i]| >= 1
    ensures forall i :: 0 <= i < |table| ==> '\n' !in Lines(table)[i]
    ensures forall i :: 0 <= i < |table| ==> Text.Split(Lines(table)[i], ';') == table[i]
  {
    forall i | 0 <= i < |table|
      ensures '\n' !in Lines(table)[i]
      ensures Text.Split(Lines(table)[i], ';') == table[i]
    {
      Text.JoinAvoids(table[i], ';', '\n');
      Text.SplitJoin(table[i], ';');
    }
  }

  /** A document whose server timestamp has not resolved reads as the epoch,
      so any start date after 1 January 1970 hides it. */
  lemma PendingDocHiddenByStartDate(d: StoredDoc, c: Criteria)
    requires d.createdAt.None? && c.startDay.Some? && c.startDay.value >= 1
    ensures !PeriodMatch(c, FromDoc(d))
  {
  }
}

=== FILE: forms.dfy ===
/** What the two transaction forms (the dashboard's modal and the stand-alone
    form) share: the field state, the submit guards, the write they issue and
    the category choice. Writes are returned as values; the store performs them. */
module Forms {
  import opened Model

  /** The three controlled inputs. `amount` is the raw text of the number input. */
  datatype Fields = Fields(kind: string, amount: string, category: string)

  /** The initial and reset state: `("ganho", "", "")`. */
  const Blank: Fields := Fields(Income, "", "")

  datatype User = User(uid: string)

  /** A document field value. `ServerTimestamp` is the `serverTimestamp()`
      sentinel, which the store replaces by its own clock. */
  datatype Value = Text(s: string) | Number(r: real) | ServerTimestamp

  type Document = map<string, Value>

  /** A write to the "transactions" collection. */
  datatype Write =
    | Update(id: string, patch: Document)   // patch the stored record `id` (src/components/TransactionModal.js:49)
    | Add(data: Document)                   // add a new record to the collection (src/components/TransactionModal.js:56)

  /** The three stored fields a submit writes (src/components/TransactionModal.js:49-53),
      with the amount parsed by `parse`, which stands for `parseFloat`. */
  function Payload(f: Fields, parse: string -> real): (p: Document)
    ensures p.Keys == {"type", "amount", "category"}
    ensures p["type"] == Text(f.kind) && p["amount"] == Number(parse(f.amount)) && p["category"] == Text(f.category)
  {
    map["type" := Text(f.kind), "amount" := Number(parse(f.amount)), "category" := Text(f.category)]
  }

  /** The outcome of the two guards, checked in this order. */
  datatype Decision = NeedLogin | NeedFields | Issue(write: Write)

  /** The submit decision (src/components/TransactionModal.js:44-63): no user
      stops first, an empty amount or category next; otherwise an update of the
      edited transaction, or a new record owned by the user and stamped by
      the server. */
  function Decide(user: Option<User>, editing: Option<Transaction>, f: Fields, parse: string -> real): (d: Decision)
    ensures d.NeedLogin? <==> user.None?
    ensures d.NeedFields? <==> user.Some? && (f.amount == "" || f.category == "")
    ensures d.Issue? && editing.Some? ==> d.write == Update(editing.value.id, Payload(f, parse))
    ensures d.Issue? && editing.None? ==>
      && d.write.Add?
      && d.write.data.Keys == {"type", "amount", "category", "userId", "createdAt"}
      && d.write.data["userId"] == Text(user.value.uid)
      && d.write.data["createdAt"] == ServerTimestamp
      && (forall k :: k in Payload(f, parse) ==> d.write.data[k] == Payload(f, parse)[k])
  {
    if user.None? then NeedLogin
    else if f.amount == "" || f.category == "" then NeedFields
    else match editing
      case Some(t) => Issue(Update(t.id, Payload(f, parse)))
      case None => Issue(Add(Payload(f, parse)["userId" := Text(user.value.uid)]["createdAt" := ServerTimestamp]))
  }

  /** `updateDoc`'s effect on the stored document: the patched fields are
      replaced and every other field is kept. */
  function Merge(stored: Document, patch: Document): (r: Document)
    ensures r.Keys == stored.Keys + patch.Keys
    ensures forall k :: k in patch ==> r[k] == patch[k]
    ensures forall k :: k in stored && k !in patch ==> r[k] == stored[k]
  {
    stored + patch
  }

  /** An edit rewrites type, amount and category only: the owner and the
      creation time of the stored document are untouched. */
  lemma EditKeepsOwnerAndDate(stored: Document, user: Option<User>, t: Transaction, f: Fields, parse: string -> real)
    requires Decide(user, Some(t), f, parse).Issue?
    ensures var r := Merge(stored, Decide(user, Some(t), f, parse).write.patch);
      && ("userId" in stored ==> "userId" in r && r["userId"] == stored["userId"])
      && ("createdAt" in stored ==> "createdAt" in r && r["createdAt"] == stored["createdAt"])
  {
  }

  /** A toast. `id` is the toast id given, if any. */
  datatype Notice = Success(id: Option<string>, text: string) | Failure(id: Option<string>, text: string)

  const LoginText: string := "Você precisa estar logado."
  const FieldsText: string := "Preencha todos os campos."
  const UpdatedText: string := "Transação atualizada!"
  const AddedText: string := "Transação adicionada!"

  const IncomeCategories: seq<string> := ["Salário", "Investimentos", "Doações", "Outros"]
  const ExpenseCategories: seq<string> :=
    ["Alimentação", "Transporte", "Lazer", "Educação", "Saúde", "Moradia", "Impostos", "Outros"]

  /** The browser's own check before a submit event: the amount input is
      `required` (src/components/TransactionModal.js:115,
      src/components/TransactionForm.js:119), so a press with an empty amount
      never reaches `handleSubmit`. The category select is not required. */
  predicate PassesRequired(f: Fields) {
    f.amount != ""
  }

  /** The category options both forms offer (src/components/TransactionModal.js:71,
      src/components/TransactionForm.js:83): the income list for "ganho", the
      expense list for any other type. */
  function CategoryOptions(kind: string): (r: seq<string>)
    ensures r == IncomeCategories <==> kind == Income
    ensures r == ExpenseCategories <==> kind != Income
  {
    if kind == Income then IncomeCategories else ExpenseCategories
  }
}

=== FILE: model.dfy ===
/** The transaction record shared by every view, and amount sums over it. */
module Model {
  import Seqs

  datatype Option<+T> = None | Some(value: T)

  /** The two transaction types the application writes. Stored documents may
      hold any other string; such records contribute to neither total. */
  const Income: string := "ganho"
  const Expense: string := "gasto"

  /** One transaction as the dashboard holds it after mapping a snapshot
      document. `kind` is the document's `type` field; `category` is "" when
      the document has none (every falsy value reads the same in the views);
      `createdAt` is the `Date` value in milliseconds since the epoch. */
  datatype Transaction = Transaction(
    id: string,
    kind: string,
    amount: real,
    category: string,
    userId: string,
    createdAt: int)

  /** The `t.type === k` test. */
  function OfKind(k: string): Transaction -> bool {
    (t: Transaction) => t.kind == k
  }

  /** The sum of the amounts from zero, folded left to right as `reduce` does. */
  function Sum(ts: seq<Transaction>): real {
    if |ts| == 0 then 0.0 else Sum(ts[..|ts| - 1]) + ts[|ts| - 1].amount
  }

  /** Sum of the amounts of the transactions of kind `k`. */
  function KindTotal(ts: seq<Transaction>, k: string): real {
    Sum(Seqs.Filter(OfKind(k), ts))
  }

  lemma {:induction false} SumAppend(a: seq<Transaction>, b: seq<Transaction>)
    ensures Sum(a + b) == Sum(a) + Sum(b)
    decreases |b|
  {
    if |b| == 0 {
      assert a + b == a;
    } else {
      var init := b[..|b| - 1];
      assert (a + b)[..|a + b| - 1] == a + init;
      SumAppend(a, init);
    }
  }

  /** Kind totals are additive over concatenation. */
  lemma KindTotalAppend(a: seq<Transaction>, b: seq<Transaction>, k: string)
    ensures KindTotal(a + b, k) == KindTotal(a, k) + KindTotal(b, k)
  {
    Seqs.FilterAppend(OfKind(k), a, b);
    SumAppend(Seqs.Filter(OfKind(k), a), Seqs.Filter(OfKind(k), b));
  }

  /** Appending one transaction adds its amount to its own kind's total only. */
  lemma KindTotalSnoc(ts: seq<Transaction>, t: Transaction, k: string)
    ensures KindTotal(ts + [t], k) == KindTotal(ts, k) + (if t.kind == k then t.amount else 0.0)
  {
    KindTotalAppend(ts, [t], k);
    assert [t][..0] == [];
  }
}

=== FILE: monthly.dfy ===
/** Monthly bucketing, written twice in the application with the same body
    (the dashboard's `groupedByMonth` and the bar chart's `grouped`/`data`):
    a `forEach` over the transactions into an object keyed by the localised
    month label, then `Object.values(...)` sorted by a comparator. */
module Monthly {
  import Seqs
  import opened Model

  /** One entry of the monthly series. */
  datatype Bucket = Bucket(month: string, ganhos: real, gastos: real)

  /** The short pt-BR month-and-year label of a timestamp
      (src/components/BarChartMonthly.js:15-18), supplied by the caller: locale formatting is not modelled. */
  type MonthLabel = int -> string

  /** The label of `t`'s month. */
  function MonthOf(fmt: MonthLabel, t: Transaction): string {
    fmt(t.createdAt)
  }

  /** Transactions of month `m` and kind `k`. */
  function InMonthOfKind(fmt: MonthLabel, m: string, k: string): Transaction -> bool {
    (t: Transaction) => MonthOf(fmt, t) == m && t.kind == k
  }

  /** Sum of the amounts of kind `k` whose month label is `m`. */
  function MonthTotal(ts: seq<Transaction>, fmt: MonthLabel, m: string, k: string): real {
    Sum(Seqs.Filter(InMonthOfKind(fmt, m, k), ts))
  }

  /** The month labels occurring in `ts`. */
  function MonthsOf(ts: seq<Transaction>, fmt: MonthLabel): set<string> {
    set i | 0 <= i < |ts| :: MonthOf(fmt, ts[i])
  }

  /** The labels of a bucket sequence. */
  function Months(bs: seq<Bucket>): set<string> {
    set i | 0 <= i < |bs| :: bs[i].month
  }

  /** No two buckets share a label. */
  predicate DistinctMonths(bs: seq<Bucket>) {
    forall i, j :: 0 <= i < j < |bs| ==> bs[i].month != bs[j].month
  }

  function SumGanhos(bs: seq<Bucket>): real {
    if |bs| == 0 then 0.0 else SumGanhos(bs[..|bs| - 1]) + bs[|bs| - 1].ganhos
  }

  function SumGastos(bs: seq<Bucket>): real {
    if |bs| == 0 then 0.0 else SumGastos(bs[..|bs| - 1]) + bs[|bs| - 1].gastos
  }

  lemma MonthsSnoc(bs: seq<Bucket>, b: Bucket)
    ensures Months(bs + [b]) == Months(bs) + {b.month}
  {
    var r := bs + [b];
    forall m | m in Months(r) ensures m in Months(bs) + {b.month} {
      var i :| 0 <= i < |r| && r[i].month == m;
      if i < |bs| { assert bs[i] == r[i]; }
    }
    forall m | m in Months(bs) + {b.month} ensures m in Months(r) {
      if m == b.month { assert r[|bs|].month == m; }
      else { var i :| 0 <= i < |bs| && bs[i].month == m; assert r[i] == bs[i]; }
    }
  }

  lemma MonthsCons(b: Bucket, bs: seq<Bucket>)
    ensures Months([b] + bs) == {b.month} + Months(bs)
  {
    var r := [b] + bs;
    forall m | m in Months(r) ensures m in {b.month} + Months(bs) {
      var i :| 0 <= i < |r| && r[i].month == m;
      if i > 0 { assert bs[i - 1] == r[i]; }
    }
    forall m | m in {b.month} + Months(bs) ensures m in Months(r) {
      if m == b.month { assert r[0].month == m; }
      else { var i :| 0 <= i < |bs| && bs[i].month == m; assert r[i + 1] == bs[i]; }
    }
  }

  lemma MonthsUpdate(bs: seq<Bucket>, i: int, b: Bucket)
    requires 0 <= i < |bs| && b.month == bs[i].month
    ensures Months(bs[i := b]) == Months(bs)
  {
    var r := bs[i := b];
    forall m | m in Months(r) ensures m in Months(bs) {
      var j :| 0 <= j < |r| && r[j].month == m;
      assert bs[j].month == m;
    }
    forall m | m in Months(bs) ensures m in Months(r) {
      var j :| 0 <= j < |bs| && bs[j].month == m;
      assert r[j].month == m;
    }
  }

  lemma MonthsOfSnoc(ts: seq<Transaction>, fmt: MonthLabel, t: Transaction)
    ensures MonthsOf(ts + [t], fmt) == MonthsOf(ts, fmt) + {MonthOf(fmt, t)}
  {
    var r := ts + [t];
    forall m | m in MonthsOf(r, fmt) ensures m in MonthsOf(ts, fmt) + {MonthOf(fmt, t)} {
      var i :| 0 <= i < |r| && MonthOf(fmt, r[i]) == m;
      if i < |ts| { assert ts[i] == r[i]; }
    }
    forall m | m in MonthsOf(ts, fmt) + {MonthOf(fmt, t)} ensures m in MonthsOf(r, fmt) {
      if m == MonthOf(fmt, t) { assert r[|ts|] == t; }
      else { var i :| 0 <= i < |ts| && MonthOf(fmt, ts[i]) == m; assert r[i] == ts[i]; }
    }
  }

  /** Position of the bucket labelled `m`, or -1 (`grouped[month]` lookup). */
  function IndexOfMonth(bs: seq<Bucket>, m: string): (i: int)
    ensures -1 <= i < |bs|
    ensures i >= 0 ==> bs[i].month == m
    ensures i < 0 <==> m !in Months(bs)
  {
    if |bs| == 0 then -1
    else if bs[|bs| - 1].month == m then |bs| - 1
    else
      assert Months(bs) == Months(bs[..|bs| - 1]) + {bs[|bs| - 1].month};
      IndexOfMonth(bs[..|bs| - 1], m)
  }

  /** Adds `t.amount` to `ganhos` when the type is "ganho" and to `gastos`
      when it is "gasto"; any other type adds to neither. */
  function Contribute(b: Bucket, t: Transaction): (r: Bucket)
    ensures r.month == b.month
    ensures r.ganhos == b.ganhos + (if t.kind == Income then t.amount else 0.0)
    ensures r.gastos == b.gastos + (if t.kind == Expense then t.amount else 0.0)
  {
    Bucket(b.month,
           if t.kind == Income then b.ganhos + t.amount else b.ganhos,
           if t.kind == Expense then b.gastos + t.amount else b.gastos)
  }

  /** One `forEach` iteration: open the month's bucket at zero if absent,
      then contribute the transaction to it. */
  function Step(bs: seq<Bucket>, fmt: MonthLabel, t: Transaction): seq<Bucket> {
    var m := MonthOf(fmt, t);
    var i := IndexOfMonth(bs, m);
    if i < 0 then bs + [Contribute(Bucket(m, 0.0, 0.0), t)]
    else bs[i := Contribute(bs[i], t)]
  }

  /** The buckets in the order their labels first occur (the insertion order
      of the `grouped` object, whose keys are never array indices). */
  function Group(ts: seq<Transaction>, fmt: MonthLabel): (bs: seq<Bucket>)
    ensures |bs| <= |ts|
    ensures DistinctMonths(bs)
    ensures Months(bs) == MonthsOf(ts, fmt)
  {
    if |ts| == 0 then []
    else
      var init, t := ts[..|ts| - 1], ts[|ts| - 1];
      assert ts == init + [t];
      MonthsOfSnoc(init, fmt, t);
      var prev := Group(init, fmt);
      StepMonths(prev, fmt, t);
      Step(prev, fmt, t)
  }

  /** One step keeps labels distinct and adds the transaction's label. */
  lemma StepMonths(bs: seq<Bucket>, fmt: MonthLabel, t: Transaction)
    requires DistinctMonths(bs)
    ensures |Step(bs, fmt, t)| <= |bs| + 1
    ensures DistinctMonths(Step(bs, fmt, t))
    ensures Months(Step(bs, fmt, t)) == Months(bs) + {MonthOf(fmt, t)}
  {
    var m := MonthOf(fmt, t);
    var i := IndexOfMonth(bs, m);
    if i < 0 {
      MonthsSnoc(bs, Contribute(Bucket(m, 0.0, 0.0), t));
      assert forall j :: 0 <= j < |bs| ==> bs[j].month in Months(bs);
    } else {
      MonthsUpdate(bs, i, Contribute(bs[i], t));
    }
  }

  lemma {:induction false} SumsSnoc(bs: seq<Bucket>, b: Bucket)
    ensures SumGanhos(bs + [b]) == SumGanhos(bs) + b.ganhos
    ensures SumGastos(bs + [b]) == SumGastos(bs) + b.gastos
  {
    assert (bs + [b])[..|bs|] == bs;
  }

  /** Replacing one bucket changes the sums by the difference. */
  lemma {:induction false} SumsUpdate(bs: seq<Bucket>, i: int, b: Bucket)
    requires 0 <= i < |bs|
    ensures SumGanhos(bs[i := b]) == SumGanhos(bs) - bs[i].ganhos + b.ganhos
    ensures SumGastos(bs[i := b]) == SumGastos(bs) - bs[i].gastos + b.gastos
    decreases |bs|
  {
    var n := |bs| - 1;
    if i < n {
      SumsUpdate(bs[..n], i, b);
      assert bs[i := b][..n] == bs[..n][i := b];
    } else {
      assert bs[i := b][..n] == bs[..n];
    }
  }

  /** One step adds the transaction's amount to the bucket sum of its own type. */
  lemma StepSums(bs: seq<Bucket>, fmt: MonthLabel, t: Transaction)
    ensures SumGanhos(Step(bs, fmt, t)) == SumGanhos(bs) + (if t.kind == Income then t.amount else 0.0)
    ensures SumGastos(Step(bs, fmt, t)) == SumGastos(bs) + (if t.kind == Expense then t.amount else 0.0)
  {
    var i := IndexOfMonth(bs, MonthOf(fmt, t));
    if i < 0 {
      SumsSnoc(bs, Contribute(Bucket(MonthOf(fmt, t), 0.0, 0.0), t));
    } else {
      SumsUpdate(bs, i, Contribute(bs[i], t));
    }
  }

  /** Across all buckets, `ganhos` adds up to the input's "ganho" total and
      `gastos` to its "gasto" total. */
  lemma {:induction false} GroupConservesTotals(ts: seq<Transaction>, fmt: MonthLabel)
    ensures SumGanhos(Group(ts, fmt)) == KindTotal(ts, Income)
    ensures SumGastos(Group(ts, fmt)) == KindTotal(ts, Expense)
  {
    if |ts| > 0 {
      var init, t := ts[..|ts| - 1], ts[|ts| - 1];
      assert ts == init + [t];
      GroupConservesTotals(init, fmt);
      StepConservesTotals(Group(init, fmt), init, fmt, t);
    }
  }

  lemma StepConservesTotals(prev: seq<Bucket>, init: seq<Transaction>, fmt: MonthLabel, t: Transaction)
    requires SumGanhos(prev) == KindTotal(init, Income)
    requires SumGastos(prev) == KindTotal(init, Expense)
    ensures SumGanhos(Step(prev, fmt, t)) == KindTotal(init + [t], Income)
    ensures SumGastos(Step(prev, fmt, t)) == KindTotal(init + [t], Expense)
  {
    StepSums(prev, fmt, t);
    SnocTotal(init, t, Income, SumGanhos(prev), SumGanhos(Step(prev, fmt, t)));
    SnocTotal(init, t, Expense, SumGastos(prev), SumGastos(Step(prev, fmt, t)));
  }

  /** A running sum that grew by exactly what `t` adds to kind `k` still
      equals that kind's total. */
  lemma SnocTotal(init: seq<Transaction>, t: Transaction, k: string, before: real, after: real)
    requires before == KindTotal(init, k)
    requires after == before + (if t.kind == k then t.amount else 0.0)
    ensures after == KindTotal(init + [t], k)
  {
    KindTotalSnoc(init, t, k);
  }

  /** Appending a transaction grows the month total of its own month and type only. */
  lemma MonthTotalSnoc(ts: seq<Transaction>, fmt: MonthLabel, t: Transaction, m: string, k: string)
    ensures MonthTotal(ts + [t], fmt, m, k)
         == MonthTotal(ts, fmt, m, k) + (if MonthOf(fmt, t) == m && t.kind == k then t.amount else 0.0)
  {
    var p := InMonthOfKind(fmt, m, k);
    Seqs.FilterAppend(p, ts, [t]);
    assert [t][..0] == [];
    SumAppend(Seqs.Filter(p, ts), Seqs.Filter(p, [t]));
  }

  /** A month absent from the input has zero totals. */
  lemma MonthTotalAbsent(ts: seq<Transaction>, fmt: MonthLabel, m: string, k: string)
    requires m !in MonthsOf(ts, fmt)
    ensures MonthTotal(ts, fmt, m, k) == 0.0
  {
    var p := InMonthOfKind(fmt, m, k);
    forall x | x in ts
      ensures !p(x)
    {
      var i :| 0 <= i < |ts| && ts[i] == x;
      assert MonthOf(fmt, ts[i]) in MonthsOf(ts, fmt);
    }
    Seqs.FilterKeepsNone(p, ts);
  }

  /** `b` holds exactly its month's "ganho" and "gasto" sums over `ts`. */
  ghost predicate BucketMatches(b: Bucket, ts: seq<Transaction>, fmt: MonthLabel) {
    && b.ganhos == MonthTotal(ts, fmt, b.month, Income)
    && b.gastos == MonthTotal(ts, fmt, b.month, Expense)
  }

  ghost predicate BucketsMatch(bs: seq<Bucket>, ts: seq<Transaction>, fmt: MonthLabel) {
    forall b :: b in bs ==> BucketMatches(b, ts, fmt)
  }

  lemma {:induction false} GroupBucketSums(ts: seq<Transaction>, fmt: MonthLabel)
    ensures BucketsMatch(Group(ts, fmt), ts, fmt)
  {
    if |ts| > 0 {
      var init, t := ts[..|ts| - 1], ts[|ts| - 1];
      assert ts == init + [t];
      GroupBucketSums(init, fmt);
      StepBucketSums(Group(init, fmt), init, fmt, t);
    }
  }

  lemma StepBucketSums(prev: seq<Bucket>, init: seq<Transaction>, fmt: MonthLabel, t: Transaction)
    requires DistinctMonths(prev) && Months(prev) == MonthsOf(init, fmt)
    requires BucketsMatch(prev, init, fmt)
    ensures BucketsMatch(Step(prev, fmt, t), init + [t], fmt)
  {
    var m := MonthOf(fmt, t);
    var i := IndexOfMonth(prev, m);
    var next := Step(prev, fmt, t);
    forall b | b in next
      ensures BucketMatches(b, init + [t], fmt)
    {
      var j :| 0 <= j < |next| && next[j] == b;
      if i < 0 && j == |prev| {
        NewBucketMatches(init, fmt, t);
      } else if j == i {
        assert prev[i] in prev;
        GrownBucketMatches(prev[i], init, fmt, t);
      } else {
        assert b == prev[j] && prev[j] in prev;
        assert prev[j].month in Months(prev);
        OtherBucketMatches(prev[j], init, fmt, t);
      }
    }
  }

  lemma NewBucketMatches(init: seq<Transaction>, fmt: MonthLabel, t: Transaction)
    requires MonthOf(fmt, t) !in MonthsOf(init, fmt)
    ensures BucketMatches(Contribute(Bucket(MonthOf(fmt, t), 0.0, 0.0), t), init + [t], fmt)
  {
    FreshMonthTotal(init, fmt, t, Income);
    FreshMonthTotal(init, fmt, t, Expense);
  }

  /** In a month first seen at `t`, the total of kind `k` is `t`'s own amount
      if `t` is of kind `k`, and zero otherwise. */
  lemma FreshMonthTotal(init: seq<Transaction>, fmt: MonthLabel, t: Transaction, k: string)
    requires MonthOf(fmt, t) !in MonthsOf(init, fmt)
    ensures MonthTotal(init + [t], fmt, MonthOf(fmt, t), k) == if t.kind == k then t.amount else 0.0
  {
    MonthTotalSnoc(init, fmt, t, MonthOf(fmt, t), k);
    MonthTotalAbsent(init, fmt, MonthOf(fmt, t), k);
  }

  lemma GrownBucketMatches(b: Bucket, init: seq<Transaction>, fmt: MonthLabel, t: Transaction)
    requires b.month == MonthOf(fmt, t) && BucketMatches(b, init, fmt)
    ensures BucketMatches(Contribute(b, t), init + [t], fmt)
  {
    assert Contribute(b, t).ganhos == MonthTotal(init + [t], fmt, b.month, Income) by {
      MonthTotalSnoc(init, fmt, t, b.month, Income);
    }
    assert Contribute(b, t).gastos == MonthTotal(init + [t], fmt, b.month, Expense) by {
      MonthTotalSnoc(init, fmt, t, b.month, Expense);
    }
  }

  lemma OtherBucketMatches(b: Bucket, init: seq<Transaction>, fmt: MonthLabel, t: Transaction)
    requires b.month != MonthOf(fmt, t) && BucketMatches(b, init, fmt)
    ensures BucketMatches(b, init + [t], fmt)
  {
    MonthTotalSnoc(init, fmt, t, b.month, Income);
    MonthTotalSnoc(init, fmt, t, b.month, Expense);
  }

  /** A transaction of an unrecognised type opens its month's bucket at zero
      and otherwise changes nothing. */
  lemma UnrecognisedKindOnlyOpensBucket(bs: seq<Bucket>, fmt: MonthLabel, t: Transaction)
    requires t.kind != Income && t.kind != Expense
    ensures MonthOf(fmt, t) in Months(bs) ==> Step(bs, fmt, t) == bs
    ensures MonthOf(fmt, t) !in Months(bs) ==> Step(bs, fmt, t) == bs + [Bucket(MonthOf(fmt, t), 0.0, 0.0)]
  {
  }

  /** Insertion of `b` before the first bucket the comparator puts after it. */
  function Insert(b: Bucket, bs: seq<Bucket>, precedes: (string, string) -> bool): (r: seq<Bucket>)
    ensures multiset(r) == multiset(bs) + multiset{b}
    ensures Months(r) == Months(bs) + {b.month}
    ensures SumGanhos(r) == SumGanhos(bs) + b.ganhos
    ensures SumGastos(r) == SumGastos(bs) + b.gastos
    ensures b.month !in Months(bs) && DistinctMonths(bs) ==> DistinctMonths(r)
  {
    if |bs| == 0 then [b]
    else if precedes(b.month, bs[0].month) then
      InsertFront(b, bs);
      [b] + bs
    else
      var rest := Insert(b, bs[1..], precedes);
      assert bs == [bs[0]] + bs[1..];
      InsertBehind(b, bs, rest);
      [bs[0]] + rest
  }

  lemma InsertFront(b: Bucket, bs: seq<Bucket>)
    ensures Months([b] + bs) == Months(bs) + {b.month}
    ensures SumGanhos([b] + bs) == SumGanhos(bs) + b.ganhos
    ensures SumGastos([b] + bs) == SumGastos(bs) + b.gastos
    ensures b.month !in Months(bs) && DistinctMonths(bs) ==> DistinctMonths([b] + bs)
  {
    ConsSums(b, bs);
    MonthsCons(b, bs);
    assert forall j :: 0 <= j < |bs| ==> bs[j].month in Months(bs);
  }

  lemma InsertBehind(b: Bucket, bs: seq<Bucket>, rest: seq<Bucket>)
    requires |bs| > 0
    requires Months(rest) == Months(bs[1..]) + {b.month}
    requires SumGanhos(rest) == SumGanhos(bs[1..]) + b.ganhos
    requires SumGastos(rest) == SumGastos(bs[1..]) + b.gastos
    requires b.month !in Months(bs[1..]) && DistinctMonths(bs[1..]) ==> DistinctMonths(rest)
    ensures Months([bs[0]] + rest) == Months(bs) + {b.month}
    ensures SumGanhos([bs[0]] + rest) == SumGanhos(bs) + b.ganhos
    ensures SumGastos([bs[0]] + rest) == SumGastos(bs) + b.gastos
    ensures b.month !in Months(bs) && DistinctMonths(bs) ==> DistinctMonths([bs[0]] + rest)
  {
    assert bs == [bs[0]] + bs[1..];
    MonthsCons(bs[0], bs[1..]);
    MonthsCons(bs[0], rest);
    ConsSums(bs[0], bs[1..]);
    ConsSums(bs[0], rest);
    if b.month !in Months(bs) && DistinctMonths(bs) {
      var r := [bs[0]] + rest;
      assert bs[0].month in Months(bs);
      assert bs[0].month !in Months(bs[1..]);
      forall p, q | 0 <= p < q < |r|
        ensures r[p].month != r[q].month
      {
        assert r[q] == rest[q - 1];
        assert rest[q - 1].month in Months(rest);
        if p > 0 {
          assert r[p] == rest[p - 1];
        }
      }
    }
  }

  lemma {:induction false} ConsSums(b: Bucket, bs: seq<Bucket>)
    ensures SumGanhos([b] + bs) == b.ganhos + SumGanhos(bs)
    ensures SumGastos([b] + bs) == b.gastos + SumGastos(bs)
    decreases |bs|
  {
    if |bs| > 0 {
      var n := |bs| - 1;
      assert ([b] + bs)[..n + 1] == [b] + bs[..n];
      ConsSums(b, bs[..n]);
    }
  }

  /** `Array.prototype.sort` with the month comparator, where `precedes(a, b)`
      stands for "the comparator returns a negative number". The engine's own
      sort algorithm is not modelled; what is claimed of the result holds of
      every permutation: the same buckets, labels and sums. */
  function SortBy(bs: seq<Bucket>, precedes: (string, string) -> bool): (r: seq<Bucket>)
    ensures multiset(r) == multiset(bs)
    ensures |r| == |bs|
    ensures Months(r) == Months(bs)
    ensures SumGanhos(r) == SumGanhos(bs)
    ensures SumGastos(r) == SumGastos(bs)
    ensures DistinctMonths(bs) ==> DistinctMonths(r)
  {
    if |bs| == 0 then []
    else
      assert bs == [bs[0]] + bs[1..];
      MonthsCons(bs[0], bs[1..]);
      ConsSums(bs[0], bs[1..]);
      var rest := SortBy(bs[1..], precedes);
      assert DistinctMonths(bs) ==> bs[0].month !in Months(bs[1..]);
      Insert(bs[0], rest, precedes)
  }

  /** The monthly series: buckets sorted by the comparator. */
  function Series(ts: seq<Transaction>, fmt: MonthLabel, precedes: (string, string) -> bool): (r: seq<Bucket>)
    ensures |r| <= |ts|
    ensures |ts| == 0 ==> r == []
    ensures DistinctMonths(r)
    ensures Months(r) == MonthsOf(ts, fmt)
    ensures BucketsMatch(r, ts, fmt)
    ensures SumGanhos(r) == KindTotal(ts, Income)
    ensures SumGastos(r) == KindTotal(ts, Expense)
  {
    var grouped := Group(ts, fmt);
    GroupBucketSums(ts, fmt);
    GroupConservesTotals(ts, fmt);
    var r := SortBy(grouped, precedes);
    assert forall b :: b in r ==> b in grouped by {
      forall b | b in r ensures b in grouped {
        assert multiset(r)[b] > 0;
      }
    }
    r
  }
}

=== FILE: seqs.dfy ===
/** Order-preserving filtering of sequences, the one selection primitive every
    fold of the application is built on (`Array.prototype.filter`). */
module Seqs {

  /** The elements of `s` that satisfy `p`, in their original order. */
  function Filter<T(!new)>(p: T -> bool, s: seq<T>): (r: seq<T>)
    ensures |r| <= |s|
    ensures forall x :: x in r <==> x in s && p(x)
    ensures forall x :: multiset(r)[x] == if p(x) then multiset(s)[x] else 0
  {
    if |s| == 0 then []
    else
      var init, last := s[..|s| - 1], s[|s| - 1];
      assert s == init + [last];
      if p(last) then Filter(p, init) + [last] else Filter(p, init)
  }

  /** `idx` picks, strictly left to right, a position of `b` for every element of `a`. */
  ghost predicate IsEmbedding<T>(a: seq<T>, b: seq<T>, idx: seq<int>) {
    && |idx| == |a|
    && (forall i :: 0 <= i < |idx| ==> 0 <= idx[i] < |b| && a[i] == b[idx[i]])
    && (forall i, j :: 0 <= i < j < |idx| ==> idx[i] < idx[j])
  }

  /** `a` is obtained from `b` by deleting elements, without reordering. */
  ghost predicate IsSubsequence<T>(a: seq<T>, b: seq<T>) {
    exists idx :: IsEmbedding(a, b, idx)
  }

  /** An embedding into `b` is also one into any extension of `b`. */
  lemma EmbeddingGrows<T>(a: seq<T>, b: seq<T>, x: T, idx: seq<int>)
    requires IsEmbedding(a, b, idx)
    ensures IsEmbedding(a, b + [x], idx)
    ensures IsEmbedding(a + [x], b + [x], idx + [|b|])
  {
  }

  lemma {:induction false} FilterIsSubsequence<T(!new)>(p: T -> bool, s: seq<T>)
    ensures IsSubsequence(Filter(p, s), s)
  {
    if |s| == 0 {
      assert IsEmbedding<T>([], s, []);
    } else {
      var init, last := s[..|s| - 1], s[|s| - 1];
      assert s == init + [last];
      FilterIsSubsequence(p, init);
      var idx :| IsEmbedding(Filter(p, init), init, idx);
      EmbeddingGrows(Filter(p, init), init, last, idx);
      if p(last) {
        assert IsEmbedding(Filter(p, s), s, idx + [|init|]);
      } else {
        assert IsEmbedding(Filter(p, s), s, idx);
      }
    }
  }

  /** Filtering distributes over concatenation. */
  lemma {:induction false} FilterAppend<T(!new)>(p: T -> bool, a: seq<T>, b: seq<T>)
    ensures Filter(p, a + b) == Filter(p, a) + Filter(p, b)
    decreases |b|
  {
    if |b| == 0 {
      assert a + b == a;
    } else {
      var init := b[..|b| - 1];
      assert (a + b)[..|a + b| - 1] == a + init;
      FilterAppend(p, a, init);
    }
  }

  /** A predicate every element meets keeps the whole sequence. */
  lemma {:induction false} FilterKeepsAll<T(!new)>(p: T -> bool, s: seq<T>)
    requires forall x :: x in s ==> p(x)
    ensures Filter(p, s) == s
  {
    if |s| > 0 {
      var init, last := s[..|s| - 1], s[|s| - 1];
      assert s == init + [last];
      forall x | x in init ensures p(x) {
        assert x in s;
      }
      FilterKeepsAll(p, init);
      assert p(last);
      assert Filter(p, s) == Filter(p, init) + [last];
    }
  }

  /** A predicate no element meets keeps nothing. */
  lemma FilterKeepsNone<T(!new)>(p: T -> bool, s: seq<T>)
    requires forall x :: x in s ==> !p(x)
    ensures Filter(p, s) == []
  {
  }

  /** Filtering twice with the same predicate changes nothing the second time. */
  lemma FilterIdempotent<T(!new)>(p: T -> bool, s: seq<T>)
    ensures Filter(p, Filter(p, s)) == Filter(p, s)
  {
    FilterKeepsAll(p, Filter(p, s));
  }
}

=== FILE: text.dfy ===
/** `Array.prototype.join` and `String.prototype.split` with a one-character
    separator, and the round trips between them. */
module Text {

  /** `parts.join(sep)`: the empty array joins to "". */
  function Join(parts: seq<string>, sep: char): string {
    if |parts| == 0 then ""
    else if |parts| == 1 then parts[0]
    else parts[0] + [sep] + Join(parts[1..], sep)
  }

  /** `s.split(sep)`: one more piece than there are separators, so "" splits
      to [""], and no piece contains the separator. */
  function Split(s: string, sep: char): (parts: seq<string>)
    ensures |parts| == 1 + multiset(s)[sep]
    ensures forall i :: 0 <= i < |parts| ==> sep !in parts[i]
  {
    if |s| == 0 then [""]
    else
      assert s == [s[0]] + s[1..];
      var rest := Split(s[1..], sep);
      if s[0] == sep then [""] + rest
      else [[s[0]] + rest[0]] + rest[1..]
  }

  /** Splitting a string with no separator gives the string back. */
  lemma {:induction false} SplitWithoutSeparator(p: string, sep: char)
    requires sep !in p
    ensures Split(p, sep) == [p]
  {
    if |p| > 0 {
      SplitWithoutSeparator(p[1..], sep);
      assert [p[0]] + p[1..] == p;
    }
  }

  /** A separator-free piece followed by the separator splits off as one piece. */
  lemma {:induction false} SplitAtFirstSeparator(p: string, sep: char, rest: string)
    requires sep !in p
    ensures Split(p + [sep] + rest, sep) == [p] + Split(rest, sep)
  {
    var s := p + [sep] + rest;
    if |p| == 0 {
      assert s[0] == sep && s[1..] == rest;
    } else {
      assert s[1..] == p[1..] + [sep] + rest;
      SplitAtFirstSeparator(p[1..], sep, rest);
      assert [p[0]] + p[1..] == p;
    }
  }

  /** Round trip: pieces free of the separator are recovered by splitting
      their join. At least one piece is needed, as `[].join` and `[""].join`
      both give "". */
  lemma {:induction false} SplitJoin(parts: seq<string>, sep: char)
    requires |parts| >= 1
    requires forall i :: 0 <= i < |parts| ==> sep !in parts[i]
    ensures Split(Join(parts, sep), sep) == parts
  {
    if |parts| == 1 {
      SplitWithoutSeparator(parts[0], sep);
    } else {
      SplitJoin(parts[1..], sep);
      SplitAtFirstSeparator(parts[0], sep, Join(parts[1..], sep));
      assert [parts[0]] + parts[1..] == parts;
    }
  }

  /** Prepending a character to the first piece prepends it to the join. */
  lemma JoinConsFirst(c: char, parts: seq<string>, sep: char)
    requires |parts| >= 1
    ensures Join([[c] + parts[0]] + parts[1..], sep) == [c] + Join(parts, sep)
  {
    var q := [[c] + parts[0]] + parts[1..];
    assert q[1..] == parts[1..];
  }

  /** An empty first piece contributes only its separator. */
  lemma JoinConsEmpty(parts: seq<string>, sep: char)
    requires |parts| >= 1
    ensures Join([""] + parts, sep) == [sep] + Join(parts, sep)
  {
    assert ([""] + parts)[1..] == parts;
  }

  /** Round trip the other way: joining the pieces of a split rebuilds the string. */
  lemma {:induction false} JoinSplit(s: string, sep: char)
    ensures Join(Split(s, sep), sep) == s
  {
    if |s| > 0 {
      JoinSplit(s[1..], sep);
      assert [s[0]] + s[1..] == s;
      JoinSplitCons(s[0], s[1..], sep);
    }
  }

  /** The inductive step of `JoinSplit`: one more leading character. */
  lemma JoinSplitCons(c: char, tail: string, sep: char)
    requires Join(Split(tail, sep), sep) == tail
    ensures Join(Split([c] + tail, sep), sep) == [c] + tail
  {
    var s := [c] + tail;
    assert s[0] == c && s[1..] == tail;
    var rest := Split(tail, sep);
    if c == sep {
      JoinConsEmpty(rest, sep);
    } else {
      JoinConsFirst(c, rest, sep);
    }
  }

  /** A character other than the separator occurs in a join only if it occurs in a piece. */
  lemma {:induction false} JoinAvoids(parts: seq<string>, sep: char, c: char)
    requires c != sep
    requires forall i :: 0 <= i < |parts| ==> c !in parts[i]
    ensures c !in Join(parts, sep)
  {
    if |parts| > 1 {
      JoinAvoids(parts[1..], sep, c);
    }
  }

  /** The first piece of a join is its prefix. */
  lemma JoinPrefix(parts: seq<string>, sep: char)
    requires |parts| >= 1
    ensures |parts[0]| <= |Join(parts, sep)|
    ensures Join(parts, sep)[..|parts[0]|] == parts[0]
  {
  }
}

=== FILE: transaction_form.dfy ===
/** The stand-alone transaction form: loading a selected transaction and
    submitting. Unlike the modal it never resets when the selection is cleared. */
module TransactionForm {
  import opened Model
  import opened Forms

  /** What one submit leads to: the write issued (if any), the toast shown,
      the fields afterwards, and whether `clearEdit()` is called. */
  datatype Outcome = Outcome(write: Option<Write>, notice: Notice, fields: Fields, clearsEdit: bool)

  /** `handleSubmit`. `selected` is `selectedTransaction`; `failure` is the
      message the awaited write rejects with, or `None` when it resolves. */
  function Submit(user: Option<User>, selected: Option<Transaction>, f: Fields,
                  parse: string -> real, failure: Option<string>): (o: Outcome)
    ensures o.write.Some? <==> user.Some? && f.amount != "" && f.category != ""
    ensures user.None? ==> o.notice == Failure(None, LoginText)
    ensures user.Some? && o.write.None? ==> o.notice == Failure(None, FieldsText)
    ensures o.write.Some? ==> Decide(user, selected, f, parse) == Issue(o.write.value)
    ensures o.clearsEdit <==> o.write.Some? && failure.None? && selected.Some?
    ensures o.write.Some? && failure.None? ==> o.fields == Blank
    ensures o.write.None? || failure.Some? ==> o.fields == f
    ensures o.write.Some? && failure.Some? ==> o.notice == Failure(Some("form-error"), "Erro ao salvar transação: " + failure.value)
    ensures o.write.Some? && failure.None? && selected.Some? ==> o.notice == Success(Some("update-success"), UpdatedText)
    ensures o.write.Some? && failure.None? && selected.None? ==> o.notice == Success(Some("create-success"), AddedText)
  {
    match Decide(user, selected, f, parse)
    case NeedLogin => Outcome(None, Failure(None, LoginText), f, false)
    case NeedFields => Outcome(None, Failure(None, FieldsText), f, false)
    case Issue(w) =>
      match failure
      case Some(msg) => Outcome(Some(w), Failure(Some("form-error"), "Erro ao salvar transação: " + msg), f, false)
      case None =>
        if selected.Some? then Outcome(Some(w), Success(Some("update-success"), UpdatedText), Blank, true)
        else Outcome(Some(w), Success(Some("create-success"), AddedText), Blank, false)
  }

  /** A press of the submit button: the browser blocks it, with no toast and
      no write, while the required amount is empty, and otherwise runs
      `handleSubmit`. Past the browser, the login and the category alone
      decide whether a write is issued. */
  function Press(user: Option<User>, selected: Option<Transaction>, f: Fields,
                 parse: string -> real, failure: Option<string>): (r: Option<Outcome>)
    ensures r.None? <==> !PassesRequired(f)
    ensures r.Some? ==> (r.value.write.Some? <==> user.Some? && f.category != "")
    ensures r.Some? && user.None? ==> r.value.notice == Failure(None, LoginText)
    ensures r.Some? && user.Some? && r.value.write.None? ==> r.value.notice == Failure(None, FieldsText)
    ensures r.Some? ==> r.value == Submit(user, selected, f, parse, failure)
  {
    if PassesRequired(f) then Some(Submit(user, selected, f, parse, failure)) else None
  }

  /** After a successful save the form is blank, so pressing again is blocked
      by the required amount and writes nothing. */
  lemma SavedFormBlocksResubmit(user: Option<User>, selected: Option<Transaction>, f: Fields,
                                parse: string -> real, again: Option<string>)
    requires Submit(user, selected, f, parse, None).write.Some?
    ensures Press(user, selected, Submit(user, selected, f, parse, None).fields, parse, again).None?
  {
  }

  /** The effect on `selectedTransaction`: a selected record loads its type,
      amount (through `toString`, supplied as `show`) and category; a cleared
      selection leaves the fields as they are. */
  function Load(selected: Option<Transaction>, f: Fields, show: real -> string): (r: Fields)
    ensures selected.Some? ==>
      r == Fields(selected.value.kind, show(selected.value.amount), selected.value.category)
    ensures selected.None? ==> r == f
  {
    match selected
    case Some(t) => Fields(t.kind, show(t.amount), t.category)
    case None => f
  }

  /** A saved edit clears the selection, and clearing it does not reload the
      form: the fields stay blank. */
  lemma SavedEditStaysBlank(user: Option<User>, t: Transaction, f: Fields, parse: string -> real, show: real -> string)
    requires Submit(user, Some(t), f, parse, None).write.Some?
    ensures Submit(user, Some(t), f, parse, None).clearsEdit
    ensures Load(None, Submit(user, Some(t), f, parse, None).fields, show) == Blank
  {
  }

  /** Dropping the selection without saving keeps the edited values in the
      form, so a following submit creates a new record from them. */
  lemma CancelledEditCreatesFromLoadedFields(user: User, t: Transaction, show: real -> string, parse: string -> real)
    requires show(t.amount) != "" && t.category != ""
    ensures var f := Load(None, Load(Some(t), Blank, show), show);
      && f == Fields(t.kind, show(t.amount), t.category)
      && Submit(Some(user), None, f, parse, None).write.Some?
      && Submit(Some(user), None, f, parse, None).write.value.Add?
  {
  }
}

=== FILE: transaction_list.dfy ===
/** The transaction list: the loading/empty/grouped branching, the per-day
    grouping `groupByDate`, and the sign of a displayed amount. */
module TransactionList {
  import Seqs
  import opened Model

  /** One day of the list: its date string and its transactions. */
  datatype DateGroup = DateGroup(date: string, items: seq<Transaction>)

  /** The day a row is filed under (src/components/TransactionList.js:5): its
      stored timestamp, or the current date when it has none, shown as a pt-BR
      date string. `toDate(t)` is what `createdAt.toDate()`
      returns when the value offers that method (a store timestamp) and `None`
      when it does not (a plain `Date`, or no value); `now` is the clock read
      and `show` the locale formatting, both supplied. */
  function DateKey(toDate: Transaction -> Option<int>, now: int, show: int -> string): Transaction -> string {
    (t: Transaction) => show(match toDate(t) case Some(ms) => ms case None => now)
  }

  /** The dashboard hands the list plain `Date` values, which offer no `toDate`. */
  function PlainDates(): Transaction -> Option<int> {
    (t: Transaction) => None
  }

  function HasKey(key: Transaction -> string, d: string): Transaction -> bool {
    (t: Transaction) => key(t) == d
  }

  /** The date strings occurring in `ts`. */
  function KeysOf(ts: seq<Transaction>, key: Transaction -> string): set<string> {
    set i | 0 <= i < |ts| :: key(ts[i])
  }

  function Dates(gs: seq<DateGroup>): set<string> {
    set i | 0 <= i < |gs| :: gs[i].date
  }

  predicate DistinctDates(gs: seq<DateGroup>) {
    forall i, j :: 0 <= i < j < |gs| ==> gs[i].date != gs[j].date
  }

  /** Sum of the group sizes. */
  function TotalSize(gs: seq<DateGroup>): nat {
    if |gs| == 0 then 0 else TotalSize(gs[..|gs| - 1]) + |gs[|gs| - 1].items|
  }

  /** Position of the group for date `d`, or -1 (`acc[dateStr]` lookup). */
  function IndexOfDate(gs: seq<DateGroup>, d: string): (i: int)
    ensures -1 <= i < |gs|
    ensures i >= 0 ==> gs[i].date == d
    ensures i < 0 <==> d !in Dates(gs)
  {
    if |gs| == 0 then -1
    else if gs[|gs| - 1].date == d then |gs| - 1
    else
      assert Dates(gs) == Dates(gs[..|gs| - 1]) + {gs[|gs| - 1].date};
      IndexOfDate(gs[..|gs| - 1], d)
  }

  /** One `reduce` iteration: open the date's array if absent, then push. */
  function Step(gs: seq<DateGroup>, key: Transaction -> string, t: Transaction): seq<DateGroup> {
    var i := IndexOfDate(gs, key(t));
    if i < 0 then gs + [DateGroup(key(t), [t])]
    else gs[i := DateGroup(key(t), gs[i].items + [t])]
  }

  /** `groupByDate`, listed in the insertion order of the accumulator's keys
      (`Object.entries`; date strings are never array indices). */
  function GroupByDate(ts: seq<Transaction>, key: Transaction -> string): (gs: seq<DateGroup>)
    ensures |gs| <= |ts|
    ensures DistinctDates(gs)
    ensures Dates(gs) == KeysOf(ts, key)
  {
    if |ts| == 0 then []
    else
      var init, t := ts[..|ts| - 1], ts[|ts| - 1];
      assert ts == init + [t];
      KeysOfSnoc(init, key, t);
      var prev := GroupByDate(init, key);
      StepDates(prev, key, t);
      Step(prev, key, t)
  }

  lemma KeysOfSnoc(ts: seq<Transaction>, key: Transaction -> string, t: Transaction)
    ensures KeysOf(ts + [t], key) == KeysOf(ts, key) + {key(t)}
  {
    var r := ts + [t];
    forall d | d in KeysOf(r, key) ensures d in KeysOf(ts, key) + {key(t)} {
      var i :| 0 <= i < |r| && key(r[i]) == d;
      if i < |ts| { assert ts[i] == r[i]; }
    }
    forall d | d in KeysOf(ts, key) + {key(t)} ensures d in KeysOf(r, key) {
      if d == key(t) { assert r[|ts|] == t; }
      else { var i :| 0 <= i < |ts| && key(ts[i]) == d; assert r[i] == ts[i]; }
    }
  }

  lemma DatesSnoc(gs: seq<DateGroup>, g: DateGroup)
    ensures Dates(gs + [g]) == Dates(gs) + {g.date}
  {
    var r := gs + [g];
    forall d | d in Dates(r) ensures d in Dates(gs) + {g.date} {
      var i :| 0 <= i < |r| && r[i].date == d;
      if i < |gs| { assert gs[i] == r[i]; }
    }
    forall d | d in Dates(gs) + {g.date} ensures d in Dates(r) {
      if d == g.date { assert r[|gs|].date == d; }
      else { var i :| 0 <= i < |gs| && gs[i].date == d; assert r[i] == gs[i]; }
    }
  }

  lemma DatesUpdate(gs: seq<DateGroup>, i: int, g: DateGroup)
    requires 0 <= i < |gs| && g.date == gs[i].date
    ensures Dates(gs[i := g]) == Dates(gs)
  {
    var r := gs[i := g];
    forall d | d in Dates(r) ensures d in Dates(gs) {
      var j :| 0 <= j < |r| && r[j].date == d;
      assert gs[j].date == d;
    }
    forall d | d in Dates(gs) ensures d in Dates(r) {
      var j :| 0 <= j < |gs| && gs[j].date == d;
      assert r[j].date == d;
    }
  }

  /** One step keeps dates distinct and adds the transaction's date. */
  lemma StepDates(gs: seq<DateGroup>, key: Transaction -> string, t: Transaction)
    requires DistinctDates(gs)
    ensures |Step(gs, key, t)| <= |gs| + 1
    ensures DistinctDates(Step(gs, key, t))
    ensures Dates(Step(gs, key, t)) == Dates(gs) + {key(t)}
  {
    var i := IndexOfDate(gs, key(t));
    if i < 0 {
      DatesSnoc(gs, DateGroup(key(t), [t]));
      assert forall j :: 0 <= j < |gs| ==> gs[j].date in Dates(gs);
    } else {
      DatesUpdate(gs, i, DateGroup(key(t), gs[i].items + [t]));
    }
  }

  // ---------------------------------------------------------------------
  // Group contents

  /** Each group holds exactly the transactions with its date, in input order. */
  ghost predicate GroupsMatch(gs: seq<DateGroup>, ts: seq<Transaction>, key: Transaction -> string) {
    forall g :: g in gs ==> g.items == Seqs.Filter(HasKey(key, g.date), ts)
  }

  lemma FilterKeySnoc(ts: seq<Transaction>, key: Transaction -> string, d: string, t: Transaction)
    ensures Seqs.Filter(HasKey(key, d), ts + [t])
         == Seqs.Filter(HasKey(key, d), ts) + (if key(t) == d then [t] else [])
  {
    Seqs.FilterAppend(HasKey(key, d), ts, [t]);
    assert [t][..0] == [];
  }

  lemma FilterKeyAbsent(ts: seq<Transaction>, key: Transaction -> string, d: string)
    requires d !in KeysOf(ts, key)
    ensures Seqs.Filter(HasKey(key, d), ts) == []
  {
    forall x | x in ts
      ensures !HasKey(key, d)(x)
    {
      var i :| 0 <= i < |ts| && ts[i] == x;
      assert key(ts[i]) in KeysOf(ts, key);
    }
    Seqs.FilterKeepsNone(HasKey(key, d), ts);
  }

  lemma StepGroupsMatch(prev: seq<DateGroup>, init: seq<Transaction>, key: Transaction -> string, t: Transaction)
    requires DistinctDates(prev) && Dates(prev) == KeysOf(init, key)
    requires GroupsMatch(prev, init, key)
    ensures GroupsMatch(Step(prev, key, t), init + [t], key)
  {
    var i := IndexOfDate(prev, key(t));
    var next := Step(prev, key, t);
    forall g | g in next
      ensures g.items == Seqs.Filter(HasKey(key, g.date), init + [t])
    {
      FilterKeySnoc(init, key, g.date, t);
      var j :| 0 <= j < |next| && next[j] == g;
      if i < 0 && j == |prev| {
        FilterKeyAbsent(init, key, key(t));
      } else if j == i {
        assert prev[i] in prev;
      } else {
        assert g == prev[j] && prev[j] in prev;
        assert prev[j].date in Dates(prev);
        assert prev[j].date != key(t);
      }
    }
  }

  /** Every group is the input filtered on its date: within a group the
      input order is kept, and a transaction sits in a group iff the group's
      date is its own date string. */
  lemma {:induction false} GroupsAreFilters(ts: seq<Transaction>, key: Transaction -> string)
    ensures GroupsMatch(GroupByDate(ts, key), ts, key)
  {
    if |ts| > 0 {
      var init, t := ts[..|ts| - 1], ts[|ts| - 1];
      assert ts == init + [t];
      GroupsAreFilters(init, key);
      StepGroupsMatch(GroupByDate(init, key), init, key, t);
    }
  }

  /** Every transaction lands in exactly one group: the one keyed by its own
      date string. */
  lemma ExactlyOneGroup(ts: seq<Transaction>, key: Transaction -> string, t: Transaction)
    requires t in ts
    ensures key(t) in Dates(GroupByDate(ts, key))
    ensures forall i :: 0 <= i < |GroupByDate(ts, key)| ==>
      (t in GroupByDate(ts, key)[i].items <==> GroupByDate(ts, key)[i].date == key(t))
  {
    var gs := GroupByDate(ts, key);
    var k :| 0 <= k < |ts| && ts[k] == t;
    assert key(ts[k]) in KeysOf(ts, key);
    GroupsAreFilters(ts, key);
    forall i | 0 <= i < |gs|
      ensures t in gs[i].items <==> gs[i].date == key(t)
    {
      assert gs[i] in gs;
    }
  }

  // ---------------------------------------------------------------------
  // Sizes and order

  lemma {:induction false} TotalSizeUpdate(gs: seq<DateGroup>, i: int, g: DateGroup)
    requires 0 <= i < |gs|
    ensures TotalSize(gs[i := g]) == TotalSize(gs) - |gs[i].items| + |g.items|
    decreases |gs|
  {
    var n := |gs| - 1;
    if i < n {
      TotalSizeUpdate(gs[..n], i, g);
      assert gs[i := g][..n] == gs[..n][i := g];
    } else {
      assert gs[i := g][..n] == gs[..n];
    }
  }

  /** The group sizes add up to the input length. */
  lemma {:induction false} SizesAddUp(ts: seq<Transaction>, key: Transaction -> string)
    ensures TotalSize(GroupByDate(ts, key)) == |ts|
  {
    if |ts| > 0 {
      var init, t := ts[..|ts| - 1], ts[|ts| - 1];
      assert ts == init + [t];
      SizesAddUp(init, key);
      var prev := GroupByDate(init, key);
      var i := IndexOfDate(prev, key(t));
      if i < 0 {
        assert (prev + [DateGroup(key(t), [t])])[..|prev|] == prev;
      } else {
        TotalSizeUpdate(prev, i, DateGroup(key(t), prev[i].items + [t]));
      }
    }
  }

  /** Position of the first transaction dated `d`, or `|ts|` if there is none. */
  function FirstIndex(ts: seq<Transaction>, key: Transaction -> string, d: string): (n: nat)
    ensures n <= |ts|
    ensures n < |ts| ==> key(ts[n]) == d
    ensures forall q :: 0 <= q < n ==> key(ts[q]) != d
  {
    if |ts| == 0 then 0
    else if key(ts[0]) == d then 0
    else 1 + FirstIndex(ts[1..], key, d)
  }

  lemma FirstIndexSnoc(ts: seq<Transaction>, key: Transaction -> string, t: Transaction, d: string)
    ensures d in KeysOf(ts, key) ==> FirstIndex(ts + [t], key, d) == FirstIndex(ts, key, d) < |ts|
    ensures d !in KeysOf(ts, key) && key(t) == d ==> FirstIndex(ts + [t], key, d) == |ts|
  {
    var r := ts + [t];
    var n, n' := FirstIndex(ts, key, d), FirstIndex(r, key, d);
    if d in KeysOf(ts, key) {
      var k :| 0 <= k < |ts| && key(ts[k]) == d;
      assert r[k] == ts[k];
      assert n < |ts|;
      assert r[n] == ts[n];
    } else if key(t) == d {
      assert r[|ts|] == t;
      forall q | 0 <= q < |ts| ensures key(r[q]) != d {
        assert r[q] == ts[q];
        assert key(ts[q]) in KeysOf(ts, key);
      }
    }
  }

  /** Groups appear in the order in which their dates first occur. */
  ghost predicate FirstOccurrenceOrder(gs: seq<DateGroup>, ts: seq<Transaction>, key: Transaction -> string) {
    forall i, j :: 0 <= i < j < |gs| ==> FirstIndex(ts, key, gs[i].date) < FirstIndex(ts, key, gs[j].date)
  }

  lemma StepKeepsOrder(prev: seq<DateGroup>, init: seq<Transaction>, key: Transaction -> string, t: Transaction)
    requires DistinctDates(prev) && Dates(prev) == KeysOf(init, key)
    requires FirstOccurrenceOrder(prev, init, key)
    ensures FirstOccurrenceOrder(Step(prev, key, t), init + [t], key)
  {
    var i := IndexOfDate(prev, key(t));
    OldDatesKeepFirstIndex(prev, init, key, t);
    OrderCarries(prev, init, key, t);
    if i < 0 {
      FirstIndexSnoc(init, key, t, key(t));
      OrderAfterAppend(prev, init + [t], key, DateGroup(key(t), [t]));
    } else {
      OrderAfterUpdate(prev, init + [t], key, i, DateGroup(key(t), prev[i].items + [t]));
    }
  }

  /** Appending a transaction leaves the first occurrence of every date
      already present where it was. */
  lemma OldDatesKeepFirstIndex(prev: seq<DateGroup>, init: seq<Transaction>, key: Transaction -> string, t: Transaction)
    requires Dates(prev) == KeysOf(init, key)
    ensures forall j :: 0 <= j < |prev| ==>
      FirstIndex(init + [t], key, prev[j].date) == FirstIndex(init, key, prev[j].date) < |init|
  {
    forall j | 0 <= j < |prev|
      ensures FirstIndex(init + [t], key, prev[j].date) == FirstIndex(init, key, prev[j].date) < |init|
    {
      assert prev[j].date in Dates(prev);
      FirstIndexSnoc(init, key, t, prev[j].date);
    }
  }

  lemma OrderCarries(prev: seq<DateGroup>, init: seq<Transaction>, key: Transaction -> string, t: Transaction)
    requires FirstOccurrenceOrder(prev, init, key)
    requires forall j :: 0 <= j < |prev| ==>
      FirstIndex(init + [t], key, prev[j].date) == FirstIndex(init, key, prev[j].date)
    ensures FirstOccurrenceOrder(prev, init + [t], key)
  {
  }

  lemma OrderAfterAppend(prev: seq<DateGroup>, ts: seq<Transaction>, key: Transaction -> string, g: DateGroup)
    requires FirstOccurrenceOrder(prev, ts, key)
    requires forall j :: 0 <= j < |prev| ==> FirstIndex(ts, key, prev[j].date) < FirstIndex(ts, key, g.date)
    ensures FirstOccurrenceOrder(prev + [g], ts, key)
  {
    var r := prev + [g];
    assert forall j :: 0 <= j < |prev| ==> r[j] == prev[j];
  }

  lemma OrderAfterUpdate(prev: seq<DateGroup>, ts: seq<Transaction>, key: Transaction -> string, i: int, g: DateGroup)
    requires 0 <= i < |prev| && g.date == prev[i].date
    requires FirstOccurrenceOrder(prev, ts, key)
    ensures FirstOccurrenceOrder(prev[i := g], ts, key)
  {
    var r := prev[i := g];
    assert forall j :: 0 <= j < |prev| ==> r[j].date == prev[j].date;
  }

  lemma {:induction false} GroupsInFirstOccurrenceOrder(ts: seq<Transaction>, key: Transaction -> string)
    ensures FirstOccurrenceOrder(GroupByDate(ts, key), ts, key)
  {
    if |ts| > 0 {
      var init, t := ts[..|ts| - 1], ts[|ts| - 1];
      assert ts == init + [t];
      GroupsInFirstOccurrenceOrder(init, key);
      StepKeepsOrder(GroupByDate(init, key), init, key, t);
    }
  }

  /** With only plain dates every transaction falls back to the same "now",
      so a non-empty list forms exactly one group holding all of it in order. */
  lemma PlainDatesFormOneGroup(ts: seq<Transaction>, now: int, show: int -> string)
    requires |ts| > 0
    ensures GroupByDate(ts, DateKey(PlainDates(), now, show)) == [DateGroup(show(now), ts)]
  {
    var key := DateKey(PlainDates(), now, show);
    assert forall t :: key(t) == show(now);
    OneKeyOneGroup(ts, key, show(now));
  }

  /** A key that gives every transaction the same date `d` puts the whole
      non-empty list into one group. */
  lemma OneKeyOneGroup(ts: seq<Transaction>, key: Transaction -> string, d: string)
    requires |ts| > 0 && forall t :: key(t) == d
    ensures GroupByDate(ts, key) == [DateGroup(d, ts)]
  {
    var gs := GroupByDate(ts, key);
    SingleKey(ts, key, d);
    SingleDate(gs, d);
    GroupsAreFilters(ts, key);
    AllHaveKey(ts, key, d);
    OnlyGroup(gs, ts, key, d);
  }

  lemma OnlyGroup(gs: seq<DateGroup>, ts: seq<Transaction>, key: Transaction -> string, d: string)
    requires |gs| == 1 && gs[0].date == d
    requires GroupsMatch(gs, ts, key)
    requires Seqs.Filter(HasKey(key, d), ts) == ts
    ensures gs == [DateGroup(d, ts)]
  {
    assert gs[0] in gs;
  }

  lemma SingleKey(ts: seq<Transaction>, key: Transaction -> string, d: string)
    requires |ts| > 0 && forall t :: key(t) == d
    ensures KeysOf(ts, key) == {d}
  {
    assert key(ts[0]) in KeysOf(ts, key);
  }

  lemma AllHaveKey(ts: seq<Transaction>, key: Transaction -> string, d: string)
    requires forall t :: key(t) == d
    ensures Seqs.Filter(HasKey(key, d), ts) == ts
  {
    Seqs.FilterKeepsAll(HasKey(key, d), ts);
  }

  /** Distinct groups over a single date are one group. */
  lemma SingleDate(gs: seq<DateGroup>, d: string)
    requires DistinctDates(gs) && Dates(gs) == {d}
    ensures |gs| == 1 && gs[0].date == d
  {
    assert d in Dates(gs);
    assert |gs| >= 2 ==> gs[0].date != gs[1].date;
    assert forall i :: 0 <= i < |gs| ==> gs[i].date in Dates(gs);
  }

  // ---------------------------------------------------------------------
  // Rendering decisions

  /** What the component shows. */
  datatype View = Loading | Empty | Grouped(groups: seq<DateGroup>)

  /** `null` shows the loading state, `[]` the empty state, and only a
      non-empty list is grouped. */
  function Render(transactions: Option<seq<Transaction>>, key: Transaction -> string): (v: View)
    ensures v.Loading? <==> transactions.None?
    ensures v.Empty? <==> transactions == Some([])
    ensures v.Grouped? ==>
      (transactions.Some? && |v.groups| >= 1 && v.groups == GroupByDate(transactions.value, key))
  {
    match transactions
    case None => Loading
    case Some(ts) =>
      if |ts| == 0 then Empty
      else
        assert key(ts[0]) in KeysOf(ts, key);
        Grouped(GroupByDate(ts, key))
  }

  /** The amount cell (src/components/TransactionList.js:57-58): a minus sign
      for expenses, then "R$ " and the amount as `money` formats it. */
  function AmountText(t: Transaction, money: real -> string): (s: string)
    ensures |s| > 0 && (s[0] == '-' <==> t.kind == Expense)
    ensures t.kind == Expense ==> s[1..] == "R$ " + money(t.amount)
    ensures t.kind != Expense ==> s == "R$ " + money(t.amount)
  {
    (if t.kind == Expense then "-" else "") + "R$ " + money(t.amount)
  }
}

=== FILE: transaction_modal.dfy ===
/** The dashboard's create/edit dialog: loading the edited transaction,
    submitting, and closing with a reset. */
module TransactionModal {
  import opened Model
  import opened Forms

  /** What one submit leads to: the write issued (if any), the toast shown,
      the fields afterwards, and whether the dialog asks to be closed. */
  datatype Outcome = Outcome(write: Option<Write>, notice: Notice, fields: Fields, closes: bool)

  /** `handleSubmit`. `transaction` is the edited record (`null` when
      creating); `failure` is the message the awaited write rejects with, or
      `None` when it resolves. A successful save runs `handleClose`:
      `onClose()` and `resetForm()`. A failed save only reports. The browser
      calls it only when the amount is filled (see `Press`). */
  function Submit(user: Option<User>, transaction: Option<Transaction>, f: Fields,
                  parse: string -> real, failure: Option<string>): (o: Outcome)
    ensures o.write.Some? <==> user.Some? && f.amount != "" && f.category != ""
    ensures user.None? ==> o.notice == Failure(Some("auth-error"), LoginText)
    ensures user.Some? && o.write.None? ==> o.notice == Failure(Some("field-error"), FieldsText)
    ensures o.write.Some? ==> Decide(user, transaction, f, parse) == Issue(o.write.value)
    ensures o.closes <==> o.write.Some? && failure.None?
    ensures o.closes ==> o.fields == Blank
    ensures !o.closes ==> o.fields == f
    ensures o.write.Some? && failure.Some? ==> o.notice == Failure(Some("modal-error"), "Erro ao salvar: " + failure.value)
    ensures o.closes && transaction.Some? ==> o.notice == Success(Some("modal-update"), UpdatedText)
    ensures o.closes && transaction.None? ==> o.notice == Success(Some("modal-create"), AddedText)
  {
    match Decide(user, transaction, f, parse)
    case NeedLogin => Outcome(None, Failure(Some("auth-error"), LoginText), f, false)
    case NeedFields => Outcome(None, Failure(Some("field-error"), FieldsText), f, false)
    case Issue(w) =>
      match failure
      case Some(msg) => Outcome(Some(w), Failure(Some("modal-error"), "Erro ao salvar: " + msg), f, false)
      case None =>
        var done := if transaction.Some? then Success(Some("modal-update"), UpdatedText)
                    else Success(Some("modal-create"), AddedText);
        Outcome(Some(w), done, Close(f), true)
  }

  /** A press of the submit button: the browser blocks it, with no toast and
      no write, while the required amount is empty, and otherwise runs
      `handleSubmit`. Past the browser, the login and the category alone
      decide whether a write is issued. */
  function Press(user: Option<User>, transaction: Option<Transaction>, f: Fields,
                 parse: string -> real, failure: Option<string>): (r: Option<Outcome>)
    ensures r.None? <==> !PassesRequired(f)
    ensures r.Some? ==> (r.value.write.Some? <==> user.Some? && f.category != "")
    ensures r.Some? && user.None? ==> r.value.notice == Failure(Some("auth-error"), LoginText)
    ensures r.Some? && user.Some? && r.value.write.None? ==> r.value.notice == Failure(Some("field-error"), FieldsText)
    ensures r.Some? ==> r.value == Submit(user, transaction, f, parse, failure)
  {
    if PassesRequired(f) then Some(Submit(user, transaction, f, parse, failure)) else None
  }

  /** With the amount filled, the field toast is reached only through an empty
      category, the one field the browser does not require. */
  lemma EmptyCategoryReachesFieldGuard(user: User, transaction: Option<Transaction>, f: Fields,
                                       parse: string -> real, failure: Option<string>)
    requires f.amount != "" && f.category == ""
    ensures Press(Some(user), transaction, f, parse, failure).Some?
    ensures Press(Some(user), transaction, f, parse, failure).value.write.None?
    ensures Press(Some(user), transaction, f, parse, failure).value.notice == Failure(Some("field-error"), FieldsText)
  {
  }

  /** `handleClose`: whatever was typed, the fields go back to blank. */
  function Close(f: Fields): (r: Fields)
    ensures r.kind == Income && r.amount == "" && r.category == ""
  {
    Blank
  }

  /** The effect on `transaction`: an edited record loads its type, amount
      (through `toString`, supplied as `show`) and category; no record resets. */
  function Load(transaction: Option<Transaction>, show: real -> string): (f: Fields)
    ensures transaction.Some? ==>
      f == Fields(transaction.value.kind, show(transaction.value.amount), transaction.value.category)
    ensures transaction.None? ==> f == Blank
  {
    match transaction
    case Some(t) => Fields(t.kind, show(t.amount), t.category)
    case None => Blank
  }

  /** The `transaction` prop as React compares it between renders: `null`,
      or a record object with its identity. Every snapshot builds new
      objects, so the same record read twice has two identities. */
  datatype Prop = NoRecord | Record(identity: nat, t: Transaction)

  /** `Object.is` on the prop: `null` equals `null`, objects by identity. */
  predicate SameProp(a: Prop, b: Prop) {
    match a
    case NoRecord => b.NoRecord?
    case Record(i, _) => b.Record? && b.identity == i
  }

  function RecordOf(p: Prop): (r: Option<Transaction>)
    ensures r.None? <==> p.NoRecord?
    ensures p.Record? ==> r == Some(p.t)
  {
    match p
    case NoRecord => None
    case Record(_, t) => Some(t)
  }

  /** The fields after a render that passes `next` where the previous render
      passed `prev`: the load effect runs only when the prop changed, and
      otherwise the fields keep their state `f`. */
  function Rerender(prev: Prop, next: Prop, f: Fields, show: real -> string): (r: Fields)
    ensures SameProp(prev, next) ==> r == f
    ensures !SameProp(prev, next) ==> r == Load(RecordOf(next), show)
  {
    if SameProp(prev, next) then f else Load(RecordOf(next), show)
  }

  /** Closing an edit without saving resets the fields. Passing the same
      record object again leaves the prop unchanged, so the load effect does
      not run: the dialog shows blank fields. A press is then blocked by the
      required amount, and `handleSubmit`, were it called, would stop at the
      field check. */
  lemma ReopenSameRecordShowsBlank(p: Prop, typed: Fields, show: real -> string, user: User,
                                   parse: string -> real, failure: Option<string>)
    requires p.Record?
    ensures Rerender(p, p, Close(typed), show) == Blank
    ensures Submit(Some(user), RecordOf(p), Rerender(p, p, Close(typed), show), parse, failure).write.None?
    ensures Submit(Some(user), RecordOf(p), Rerender(p, p, Close(typed), show), parse, failure).notice
         == Failure(Some("field-error"), FieldsText)
    ensures Press(Some(user), RecordOf(p), Rerender(p, p, Close(typed), show), parse, failure).None?
  {
  }

  /** Once a snapshot has rebuilt the record, choosing it again is a new
      object, and the dialog reloads its values. */
  lemma ReopenNewObjectReloads(p: Prop, q: Prop, typed: Fields, show: real -> string)
    requires p.Record? && q.Record? && p.identity != q.identity
    ensures Rerender(p, q, Close(typed), show) == Fields(q.t.kind, show(q.t.amount), q.t.category)
  {
  }

  /** Once a save has completed, the form is blank, so a later press is
      blocked by the required amount, and `handleSubmit`, were it called,
      would stop at the field check: nothing is written. A submit made while
      the write is still pending is not modelled. */
  lemma SaveThenResubmitWritesNothing(user: Option<User>, transaction: Option<Transaction>, f: Fields,
                                      parse: string -> real, failure: Option<string>, again: Option<string>)
    requires Submit(user, transaction, f, parse, failure).closes
    ensures Submit(user, transaction, Submit(user, transaction, f, parse, failure).fields, parse, again).write.None?
    ensures Submit(user, transaction, Submit(user, transaction, f, parse, failure).fields, parse, again).notice
         == Failure(Some("field-error"), FieldsText)
    ensures Press(user, transaction, Submit(user, transaction, f, parse, failure).fields, parse, again).None?
  {
  }

  /** A failed save keeps the fields, so retrying issues the same write. */
  lemma FailedSaveCanBeRetried(user: Option<User>, transaction: Option<Transaction>, f: Fields,
                               parse: string -> real, msg: string, again: Option<string>)
    requires Submit(user, transaction, f, parse, Some(msg)).write.Some?
    ensures Submit(user, transaction, Submit(user, transaction, f, parse, Some(msg)).fields, parse, again).write
         == Submit(user, transaction, f, parse, Some(msg)).write
  {
  }

  /** Opening a record and saving it unchanged writes back its own values,
      provided `parseFloat` inverts `toString` on its amount. */
  lemma UnchangedEditRewritesSameValues(user: User, t: Transaction, show: real -> string, parse: string -> real)
    requires show(t.amount) != "" && t.category != ""
    requires parse(show(t.amount)) == t.amount
    ensures Submit(Some(user), Some(t), Load(Some(t), show), parse, None).write
         == Some(Update(t.id, map["type" := Text(t.kind), "amount" := Number(t.amount), "category" := Text(t.category)]))
  {
  }
}
